=== FILE: README.md ===
# Restaurant menu admin console, modelled in Dafny

This project models the logic of a small admin console for a restaurant menu.
The console lists menu items, creates, edits and deletes them, and sorts and
selects the cards it shows. Underneath it sits a hierarchical realtime database
holding `menu/{category}/{key}`. The model keeps the rules that sit between the
forms and that database, and proves what they promise:

- `types.dfy` (`MenuTypes`): the validated record (`Fields`), which is also the
  body the database keeps. Also the listed item with its key, the six-entry
  category table, the tips and the toast shape.
- `ordinal.dfy` (`Ordinal`): ordinal string order, which stands in for
  `localeCompare`. The ascending enumeration of a key set, which stands in for
  the database's child order. A digit-string parser and its decimal rendering,
  which stand in for the reading half of `parseInt`.
- `numbers.dfy` (`JsNumbers`): the numbers `parseInt` returns, as JavaScript
  doubles. They are exact up to 2^53. Above that they are rounded to the nearest
  double, with ties to even, and they become `Infinity` from 2^1024. The file
  also has the difference the stock comparator takes, in which NaN counts as zero.
- `validator.dfy` (`FormValidator`): the form schema. It has five required
  non-empty texts, two optional switches and three optional size prices. It
  strips unknown properties and reports every failing property in schema order.
- `store.dfy` (`MenuStore`): the data layer over the database as a map
  `category -> key -> Fields`. It covers the flattened listing, the add under a
  fresh key, the merge-update, and path resolution and removal as the delete
  dialog performs it.
- `sorting.dfy` (`MenuSort`): the three comparators of the card and the stable
  sort that applies them.
- `menucard.dfy` (`MenuCard`): loading, card selection, the sort that each render applies in place, and the
  tip rotation.
- `forms.dfy` (`MenuForms`): the add and edit dialogs and the delete confirmation.
  This covers the starting values, the controls that are disabled or hidden,
  user actions as a sequence, and what a submission does to the store, the
  form and the toast.

Parameters stand in for the database's failures (`fault`), the key `push`
generates (`newKey`, required to be unused) and the listing a fetch returns.

Five behaviours of the source that a reader might not expect, and that the model keeps:

- `update` at a path that holds no record creates the record. It does not fail.
- The schema does not check the category against the category table. Any non-empty text passes.
- The untouched add form is rejected with five issues: name, category, price, cost and stock.
- Sorting reorders the card's own list in place. A later sort starts from the previous sort's order, not from the loaded order.
- The stock order compares JavaScript numbers. Different stocks above 2^53 can read as the same double and tie, and two stocks of 2^1024 or more both read as `Infinity` and tie as well.

## Model

| member | source | states |
|---|---|---|
| FormValidator.Check | src/lib/form-validator.ts:4-13 | one property's rule: no issue exactly when the rule holds; an empty required text gets that field's own message; an absent required text reads "Required" |
| FormValidator.Rank | src/lib/form-validator.ts:3-14 | every property has a position in the schema and sits at it |
| FormValidator.IssuesFromSound | src/lib/form-validator.ts:3-14 | every reported issue is the issue its own property's rule raises |
| FormValidator.IssuesFromComplete | src/lib/form-validator.ts:3-14 | every failing property is reported; parsing does not stop at the first failure |
| FormValidator.IssuesFromOrdered | src/lib/form-validator.ts:3-14 | issues come in schema order, so no property is reported twice |
| FormValidator.IssuesFromClean | src/lib/form-validator.ts:3-14 | no issue is reported when every property passes |
| FormValidator.ConformsMeansAll | src/lib/form-validator.ts:4-13 | the field-by-field acceptance condition is exactly "every rule holds" |
| FormValidator.IssuesExact | src/lib/form-validator.ts:3-14 | the issue list is empty exactly for accepted input, and otherwise names each failing property once, in order |
| FormValidator.Validate | src/lib/form-validator.ts:3-14 | accepted exactly when the five required texts are non-empty and the switches and sizes are absent or of the right kind; the record then holds each property's value |
| FormValidator.ValidateReportsEachFailure | src/lib/form-validator.ts:4-13 | a rejection lists a property if and only if its rule fails, with that rule's issue |
| FormValidator.EmptyRequiredCarriesMessage | src/lib/form-validator.ts:4-9 | an empty required field is reported with its own message, such as "Please enter a name" |
| FormValidator.ValidateToRaw | src/lib/types.ts:1-13 | a stored record handed back to the schema is accepted exactly when its required fields are filled, and then comes back unchanged |
| FormValidator.ToRawValidate | src/lib/form-validator.ts:3-14 | whatever is accepted is the input with its unknown properties stripped |
| FormValidator.ValidateIgnoresExtra | src/lib/form-validator.ts:3-14 | properties outside the schema, such as `id`, never change the outcome |
| FormValidator.IssuesCongruent | src/lib/form-validator.ts:3-14 | two inputs that agree on the declared properties get the same issues |
| FormValidator.NothingBeyondPresence | src/lib/form-validator.ts:5-13 | any non-empty category, non-numeric amounts and empty sizes pass, whatever the additionals switch says |
| FormValidator.OnlyName | src/lib/form-validator.ts:4-13 | when every other property passes, the name's issue is the only one |
| FormValidator.OnlyEmptyNameReported | src/lib/form-validator.ts:4 | a record with only the name empty is rejected with exactly "Please enter a name" |
| Ordinal.Compare | src/components/MenuCard.tsx:90 | the three-way comparison is zero, negative or positive exactly for equal, smaller or larger strings |
| Ordinal.LessTransitive | src/components/MenuCard.tsx:90 | the category order is transitive |
| Ordinal.LessTotal | src/components/MenuCard.tsx:90 | any two distinct categories are ordered one way |
| Ordinal.Ascending | src/function/firebaseFunctions.ts:15-18 | child keys are enumerated once each, in strictly increasing order |
| Ordinal.ParseInt | src/components/MenuCard.tsx:92 | a digit string reads as a number below 10 to the power of its length, a single digit as itself; `ShowParse` states exactly which number |
| Ordinal.ParseShow | src/components/MenuCard.tsx:92 | reading back the decimal digits of a number gives the number |
| Ordinal.ShowParse | src/components/MenuCard.tsx:92 | the number a digit string reads as, written back in decimal, is the string without its leading zeros: a stock of "05" is 5 |
| Ordinal.LeadingZerosIgnored | src/components/MenuCard.tsx:92 | a zero in front of a digit string does not change the number it reads as |
| Ordinal.StripZeros | src/components/MenuCard.tsx:92 | removing leading zeros leaves a digit string without a leading zero (or a single digit) worth the same number |
| Ordinal.ShowDigits | src/components/MenuCard.tsx:92 | a digit string without a leading zero is the decimal rendering of the number it reads as |
| Ordinal.DigitsLowerBound | src/components/MenuCard.tsx:92 | a digit string without a leading zero reads as at least 10 to the power of its length less one |
| JsNumbers.ToDouble | src/components/MenuCard.tsx:92 | the number `parseInt` yields is the value itself up to 2^53; `RoundsToNearest`, `InfinityThreshold` and `ToDoubleMonotone` state what it is above |
| JsNumbers.RoundsToNearest | src/components/MenuCard.tsx:92 | above 2^53 a finite result is a multiple of the unit 2^k at which the value is rounded, at most half a unit away, with an even significand on a tie: the nearest double |
| JsNumbers.InfinityThreshold | src/components/MenuCard.tsx:92 | the result is `Infinity` exactly when the value is at least the midpoint between the largest double and 2^1024 |
| JsNumbers.ToDoubleMonotone | src/components/MenuCard.tsx:92 | a larger value never reads as a smaller number |
| JsNumbers.AboveSafeCollapses | src/components/MenuCard.tsx:92 | 2^53 + 1 reads as 2^53, the nearest double with an even significand |
| JsNumbers.HugeIsInfinity | src/components/MenuCard.tsx:92 | a value of 2^1024 or more reads as `Infinity` |
| JsNumbers.Minus | src/components/MenuCard.tsx:92 | the difference of two numbers is negative exactly when the first is smaller and zero exactly when they are equal, `Infinity - Infinity` (NaN) counting as zero |
| MenuStore.PartitionItems | src/function/firebaseFunctions.ts:18-36 | one partition yields exactly the entries of its keys, in key order, each with the parent's category |
| MenuStore.FlattenFrom | src/function/firebaseFunctions.ts:15-38 | the listed partitions yield exactly their records' entries, ordered by category and then by key |
| MenuStore.Flatten | src/function/firebaseFunctions.ts:15-38 | every listed entry carries its key and names a partition of the store |
| MenuStore.FlattenExact | src/function/firebaseFunctions.ts:15-40 | the listing holds exactly the stored records' entries, in (category, key) order |
| MenuStore.ListingSize | src/function/firebaseFunctions.ts:15-37 | the listing has one entry per stored record, so its length is the sum of the partition sizes |
| MenuStore.OrderedListingContiguous | src/function/firebaseFunctions.ts:15-18 | the entries of one category are contiguous and none is listed twice |
| MenuStore.ListedIsStored | src/function/firebaseFunctions.ts:19-33 | an entry takes its id and category from the path and copies the other fields verbatim |
| MenuStore.GetAllMenuItems | src/function/firebaseFunctions.ts:7-47 | an empty store lists nothing; otherwise every record is listed once; a failure becomes "Error in getting menu items: " and its cause |
| MenuStore.Put | src/function/firebaseFunctions.ts:51-65 | the written record is at `menu/{category}/{key}`, and the partitions are the old ones plus that category |
| MenuStore.PutFrame | src/function/firebaseFunctions.ts:51-65 | a write sets one record, touches nothing else and keeps the store well formed |
| MenuStore.AddMenuItem | src/function/firebaseFunctions.ts:49-69 | succeeds exactly when the write succeeds, the category path is legal and no field is `undefined`; then the record is stored under the new key and nothing else changes; otherwise "Error in adding menu" |
| MenuStore.AddThenListed | src/function/firebaseFunctions.ts:49-69 | after an add the listing is the old one plus exactly the new entry |
| MenuStore.Merge | src/function/firebaseFunctions.ts:75 | supplied properties overwrite; properties left out keep their prior value |
| MenuStore.MergeIdempotent | src/function/firebaseFunctions.ts:75 | merging the same data again changes nothing, and a complete record replaces outright |
| MenuStore.EditMenuItem | src/function/firebaseFunctions.ts:71-79 | merges into `menu/{category}/{id}` (creating it if absent) and touches no other record; a failure reads "Error in editing {name} menu" |
| MenuStore.EditIdempotent | src/function/firebaseFunctions.ts:71-79 | submitting the same edit twice has the effect of one |
| MenuStore.PutSame | src/function/firebaseFunctions.ts:75 | writing back the stored record changes nothing |
| MenuStore.EditThenListed | src/function/firebaseFunctions.ts:71-79 | after an edit the merged entry is listed and every other entry is as before |
| MenuStore.Segments | src/components/DeleteMenu.tsx:40 | path segments keep every non-empty part and drop the empty ones |
| MenuStore.Address | src/components/DeleteMenu.tsx:40 | `menu/{category}/{id}` resolves to the record, or to the partition when the id is empty |
| MenuStore.Remove | src/components/DeleteMenu.tsx:44 | exactly the covered records disappear, the rest keep their values, and no empty partition is left |
| MenuStore.RemoveIdempotent | src/components/DeleteMenu.tsx:44 | removing the same node again changes nothing |
| MenuStore.DeleteRemovesOne | src/components/DeleteMenu.tsx:40-44 | deleting by category and key removes exactly that pair; a record with the same key in another category stays |
| MenuStore.DeleteThenNotListed | src/components/DeleteMenu.tsx:40-44 | the listing afterwards is the old listing without the deleted entry |
| MenuStore.DeleteEmptyIdRemovesCategory | src/components/DeleteMenu.tsx:40-44 | with an empty id the whole category is deleted and the other categories stay |
| MenuSort.Cmp | src/components/MenuCard.tsx:87-96 | category order by name, stock order largest first by the JavaScript number the stock reads as, ordering status with enabled first; zero exactly for ties |
| MenuSort.StockOrderExact | src/components/MenuCard.tsx:91-92 | for stocks up to 2^53 the stock order is exactly the numeric order, largest first, and ties are equal numbers |
| MenuSort.LargerStockFirst | src/components/MenuCard.tsx:91-92 | at any size, an item whose stock is at least another's may stay ahead of it in the stock order |
| MenuSort.CollapsedStocksTie | src/components/MenuCard.tsx:91-92 | the different stocks 9007199254740992 and 9007199254740993 tie in the stock order |
| MenuSort.InfiniteStocksTie | src/components/MenuCard.tsx:91-92 | two stocks of 2^1024 or more tie in the stock order, whatever their digits |
| MenuSort.BeforeTransitive | src/components/MenuCard.tsx:87-96 | each comparator orders transitively |
| MenuSort.BeforeTotal | src/components/MenuCard.tsx:87-96 | each comparator puts any compatible pair one way or the other |
| MenuSort.IncompatibleContradicts | src/components/MenuCard.tsx:94-96 | an absent switch and an explicit `false` each compare greater than the other |
| MenuSort.SortedPairwise | src/components/MenuCard.tsx:87-96 | a list sorted neighbour by neighbour is sorted pairwise |
| MenuSort.Insert | src/components/MenuCard.tsx:87-96 | inserting into a sorted list keeps it sorted and adds exactly the element |
| MenuSort.InsertTies | src/components/MenuCard.tsx:87-96 | an inserted element joins its tie group ahead of it; no other tie group changes |
| MenuSort.Sort | src/components/MenuCard.tsx:87-96 | the result is a permutation of the input in the comparator's order |
| MenuSort.SortStable | src/components/MenuCard.tsx:87-96 | tied elements keep their relative order |
| MenuCard.Load | src/components/MenuCard.tsx:49-64 | a fetched listing replaces the items and says whether any exist; a failure leaves the state and shows "Error in getting all the menu" |
| MenuCard.Without | src/components/MenuCard.tsx:77 | drops every occurrence of the id and keeps the other ids |
| MenuCard.WithoutNoDup | src/components/MenuCard.tsx:77 | dropping an id keeps a duplicate-free selection duplicate-free |
| MenuCard.Toggle | src/components/MenuCard.tsx:74-80 | the id's membership flips; an absent id is appended; other ids and their order stay; no duplicates appear |
| MenuCard.ToggleTwice | src/components/MenuCard.tsx:74-80 | two clicks restore membership, and the exact list when the id was not selected |
| MenuCard.ClickFlipsHighlight | src/components/MenuCard.tsx:128-137 | clicking a card flips its own highlight and no card with a different id |
| MenuCard.KeyOf | src/components/MenuCard.tsx:88-98 | each of "category", "stock" and "option" selects its order, and nothing else selects one |
| MenuCard.SortMenuItems | src/components/MenuCard.tsx:87-100 | a known choice gives a sorted permutation of the list it is given; any other value, including the initial "", returns that list unchanged |
| MenuCard.EnabledFirst | src/components/MenuCard.tsx:93-96 | sorted by ordering status, every enabled item precedes every item that is not |
| MenuCard.SortMenuItemsStable | src/components/MenuCard.tsx:87-100 | tied cards keep the order of the list the sort is given |
| MenuCard.Render | src/components/MenuCard.tsx:87-129 | while items are shown, the card's own list is sorted in place by the current choice and is what is on screen; nothing else in the state changes; nothing is shown before a non-empty load |
| MenuCard.RenderIdempotent | src/components/MenuCard.tsx:87-129 | a render with no new choice, such as after a tip tick or a click, does not reorder the cards |
| MenuCard.ChooseSort | src/components/MenuCard.tsx:82-129 | choosing an order sorts the card's current list by it, keeps its elements, and changes nothing else |
| MenuCard.ChooseSortStable | src/components/MenuCard.tsx:87-129 | cards the new order ties keep the order the list had before the choice, which is the previous choice's order |
| MenuCard.StockTieKept | src/components/MenuCard.tsx:91-92 | a stock sort keeps two items whose stocks read as the same number in their order |
| MenuCard.SortChoicesAccumulate | src/components/MenuCard.tsx:87-129 | two items with equal stock, sorted by category and then by stock, stay in category order, while a stock sort of the loaded list keeps them as loaded |
| MenuCard.NextTip | src/components/MenuCard.tsx:68 | the tip index stays within the tips and wraps from the last to the first |
| MenuCard.TipAfter | src/components/MenuCard.tsx:66-70 | the tip index after any number of interval ticks, starting from the first tip, always names one of the three tips |
| MenuCard.TipCycles | src/components/MenuCard.tsx:47-72 | after n ticks the footer shows tip n mod 3 |
| MenuForms.EditDefaults | src/components/EditMenuForm.tsx:58-72 | the edit form starts from the item's own fields: submitted untouched it yields the item's record when complete |
| MenuForms.AddDefaultsStart | src/components/AddMenuForm.tsx:50-64 | the add dialog opens with every control holding a value of its kind, no category chosen, an empty name and the size inputs hidden |
| MenuForms.Enabled | src/components/EditMenuForm.tsx:147-226 | in the edit dialog the category select and the additionals switch are disabled; the size inputs exist only while additionals is on; the select and the switches take no typing |
| MenuForms.Set | src/components/AddMenuForm.tsx:115-274 | a control sets its own property and no other |
| MenuForms.Apply | src/components/EditMenuForm.tsx:147-226 | typing sets the input's text and a switch its flag; picking a category submits its label; an action on a disabled or hidden control changes nothing; no action touches another property |
| MenuForms.Run | src/components/AddMenuForm.tsx:115-278 | after any sequence of actions, a property no action writes keeps its value, and no property outside the schema appears |
| MenuForms.RunAppend | src/components/AddMenuForm.tsx:115-278 | acting out two sequences one after the other is acting out their concatenation |
| MenuForms.UntouchedAddRejected | src/components/AddMenuForm.tsx:50-64 | the untouched add form is rejected with the five required-field messages in schema order, so it never reaches the database |
| MenuForms.UntouchedIssues | src/components/AddMenuForm.tsx:50-64 | the untouched add form's issues are name, category, price, cost and stock |
| MenuForms.UntouchedAmountsRejected | src/components/AddMenuForm.tsx:55-62 | of the later properties only price, cost and stock are reported |
| MenuForms.RunKeepsChoiceAndPresence | src/components/AddMenuForm.tsx:132-164 | whatever the user does, the category stays empty or one of the offered labels, and every control keeps a value of its kind |
| MenuForms.EditFreezes | src/components/EditMenuForm.tsx:148-226 | whatever the user does in the edit dialog, category and additionals stay as loaded |
| MenuForms.SizesStayEmpty | src/components/AddMenuForm.tsx:200-246 | unless additionals is switched on, the size fields keep their empty defaults |
| MenuForms.SubmitAdd | src/components/AddMenuForm.tsx:66-87 | a rejected form stays with its messages; a created record lands under the new key and the form resets; a failure shows "Error in creating menu" with the thrown message |
| MenuForms.LabelsAreKeys | src/lib/data.ts:1-26 | every category label is a legal single path segment |
| MenuForms.LabelIsNotValue | src/lib/data.ts:1-26 | no label equals any category value |
| MenuForms.AddStoresUnderLabel | src/components/AddMenuForm.tsx:148-152 | a created record's partition is named by the category's label, never its value |
| MenuForms.AddFormDefined | src/components/AddMenuForm.tsx:50-68 | a form reached from the add defaults never sends an `undefined` field |
| MenuForms.AddSubmitListed | src/components/AddMenuForm.tsx:66-79 | a successful add lists the new record under its key, and the reset form is rejected if resubmitted |
| MenuForms.SubmitEdit | src/components/EditMenuForm.tsx:74-94 | writes the accepted values at the item's own category and key and nothing else; a control left `undefined` or a failed write shows "Error in editing menu"; the form is kept |
| MenuForms.EditTargetsOwnRecord | src/components/EditMenuForm.tsx:76 | whatever the user changes, an edit can only touch the item's own record in its own category |
| MenuForms.UntouchedEditKeepsStore | src/components/EditMenuForm.tsx:58-94 | submitting a listed record's edit form untouched leaves the store as it was |
| MenuForms.OpenDelete | src/components/DeleteMenu.tsx:31-32 | the dialog opens on its item with no deletion under way |
| MenuForms.ConfirmDelete | src/components/DeleteMenu.tsx:35-63 | "Yes" removes the node `menu/{category}/{id ?? ""}` resolves to; the flag only goes from false to true; a second press does nothing; the outcome toast names the item or the error |
| MenuForms.DeleteListedItem | src/components/DeleteMenu.tsx:104-111 | confirming a listed item removes exactly its record, and a further press changes nothing |
| MenuForms.DeleteWithoutIdClearsCategory | src/components/DeleteMenu.tsx:107 | an item without a key addresses its whole category |

## Left out

- The database transport, snapshots and push-key generation. A fresh key and a failure outcome are parameters.
- `removeSelectedMenuItems` and `uploadImageToStorage`: concurrent fan-out and object-store I/O that the card never calls.
- `MenuLogic.tsx`, `firebase.ts`, `Header.tsx`, `page.tsx` and all rendering. This includes toasts' delays, `setTimeout`, page reloads, tooltips and dialog open state. firebase.ts is not part of this model.
- Ordinal.Compare: `localeCompare` is replaced by ordinal (code point) order, because locale collation is data the source does not control.
- Ordinal.Ascending: the database lists integer-like keys numerically before the others, and compares UTF-16 code units. The model uses plain ordinal order. Key-length limits are not modelled.
- MenuSort.Cmp: the stock order is stated only for digit-only stocks. `parseInt` on other text (NaN, signs, trailing junk) is not modelled.
- JsNumbers.ToDouble: reading a digit string is modelled as the exact value rounded to the nearest double. Section 19.2.5 of ECMA-262 (`parseInt`) also lets an implementation replace every digit after the 20th with 0 before rounding, which can change the result for stocks of more than 20 digits; that latitude is not modelled.
- MenuSort.Sort: the ordering-status sort is stated only for lists that do not mix an absent switch with an explicit `false`. The comparator contradicts itself on such a pair, as `IncompatibleContradicts` shows, and the engine's result then depends on its algorithm.
- MenuCard.SortMenuItems: the source sorts the card's `menuItems` rather than its `items` parameter. The only call passes `menuItems`, so the model sorts the argument. The in-place reordering of the card's state is modelled by `MenuCard.Render`.
- MenuStore.AddMenuItem: requires a non-empty, slash-free category and an unused key. The category is a submitted label (see `MenuForms.LabelsAreKeys`), and push keys are fresh.
- MenuStore.EditMenuItem: requires a non-empty, slash-free key. With an empty key the update would land on the whole partition and write the fields as its children, which a store of records cannot hold. The edit dialog is only reached from listed items, which always carry their key.
- MenuForms.SubmitEdit: requires the item to carry its key, for the same reason.
- MenuForms.Apply: the size inputs follow the switch's current value. The source reads the value when the dialog renders, so the timing of a re-render is abstracted.
- MenuForms.ConfirmDelete: requires a slash-free category and key, so that the path names one partition and one record. Listed items always meet this. A path with an illegal character throws before the flag is set, and that case is modelled: nothing changes and no toast shows.
- Validation of a price, cost or stock as a number: the schema performs none, and neither does the model.

=== FILE: forms.dfy ===
/**
 * The add and edit dialogs and the delete confirmation: the values a form
 * starts from, what the user can change, and what a submission does to the
 * store, the form and the toasts.
 */
module MenuForms {
  import opened MenuTypes
  import opened FormValidator
  import opened MenuStore

  datatype Mode = Adding | Editing

  /** The add dialog's starting values: every text empty, both switches off. */
  const AddDefaults: Raw := Raw(
    Some(Text("")), Some(Text("")), Some(Flag(false)), Some(Text("")), Some(Text("")),
    Some(Text("")), Some(Flag(false)), Some(Text("")), Some(Text("")), Some(Text("")), map[])

  /** The edit dialog's starting values: the item's own fields; its id is not a form value. */
  function EditDefaults(item: MenuItem): (r: Raw)
    ensures Validate(r).Ok? <==> Filled(item.fields)
    ensures Filled(item.fields) ==> Validate(r) == Ok(item.fields)
  {
    ValidateToRaw(item.fields);
    ToRaw(item.fields)
  }

  /** What the user does in a dialog: types into an input, picks a category, flips a switch. */
  datatype Action =
    | Type(key: Key, text: string)
    | Pick(index: nat)
    | Flip(key: Key, on: bool)

  /** The size inputs are rendered only while the additionals switch is on. */
  predicate SizesShown(form: Raw)
  {
    form.additional == Some(Flag(true))
  }

  predicate IsSizeKey(k: Key)
  {
    k.SmallKey? || k.MediumKey? || k.LargeKey?
  }

  /** The action has a control to act on: the category select and the additionals switch are disabled when editing. */
  predicate Enabled(mode: Mode, form: Raw, a: Action)
    ensures mode.Editing? && a.Pick? ==> !Enabled(mode, form, a)
    ensures mode.Editing? && a.Flip? && a.key.AdditionalKey? ==> !Enabled(mode, form, a)
    ensures a.Type? && IsSizeKey(a.key) && !SizesShown(form) ==> !Enabled(mode, form, a)
    ensures a.Type? && !IsSizeKey(a.key) ==> (Enabled(mode, form, a) <==> Target(a) !in {CategoryKey, OptionKey, AdditionalKey})
  {
    match a
    case Type(k, _) => k.NameKey? || k.CostKey? || k.PriceKey? || k.StockKey? || (IsSizeKey(k) && SizesShown(form))
    case Pick(i) => mode.Adding? && i < |Categories|
    case Flip(k, _) => k.OptionKey? || (k.AdditionalKey? && mode.Adding?)
  }

  /** The property an action writes. */
  function Target(a: Action): Key
  {
    match a
    case Type(k, _) => k
    case Pick(_) => CategoryKey
    case Flip(k, _) => k
  }

  /** `form` with one property replaced. */
  function Set(form: Raw, k: Key, v: Value): (r: Raw)
    ensures Lookup(r, k) == Some(v)
    ensures forall j :: j != k ==> Lookup(r, j) == Lookup(form, j)
    ensures r.extra == form.extra
  {
    match k
    case NameKey => form.(name := Some(v))
    case CategoryKey => form.(category := Some(v))
    case OptionKey => form.(option := Some(v))
    case PriceKey => form.(price := Some(v))
    case CostKey => form.(cost := Some(v))
    case StockKey => form.(stock := Some(v))
    case AdditionalKey => form.(additional := Some(v))
    case SmallKey => form.(small := Some(v))
    case MediumKey => form.(medium := Some(v))
    case LargeKey => form.(large := Some(v))
  }

  /**
   * One user action: typing sets the input's text, a switch sets its flag,
   * the category select submits the chosen label. An action on a disabled or
   * absent control changes nothing, and no action touches another property.
   */
  function Apply(mode: Mode, form: Raw, a: Action): (r: Raw)
    ensures !Enabled(mode, form, a) ==> r == form
    ensures Enabled(mode, form, a) && a.Type? ==> Lookup(r, a.key) == Some(Text(a.text))
    ensures Enabled(mode, form, a) && a.Flip? ==> Lookup(r, a.key) == Some(Flag(a.on))
    ensures Enabled(mode, form, a) && a.Pick? ==> r.category == Some(Text(Categories[a.index].labelText))
    ensures forall j :: j != Target(a) ==> Lookup(r, j) == Lookup(form, j)
    ensures r.extra == form.extra
  {
    if !Enabled(mode, form, a) then form
    else
      match a
      case Type(k, s) => Set(form, k, Text(s))
      case Pick(i) => Set(form, CategoryKey, Text(Categories[i].labelText))
      case Flip(k, b) => Set(form, k, Flag(b))
  }

  /** No action in the sequence writes property `k`. */
  predicate Untargeted(actions: seq<Action>, k: Key)
  {
    forall i :: 0 <= i < |actions| ==> Target(actions[i]) != k
  }

  /**
   * A sequence of user actions, applied in order. A property no action
   * writes keeps its value, and no property outside the schema appears.
   */
  function Run(mode: Mode, form: Raw, actions: seq<Action>): (r: Raw)
    ensures r.extra == form.extra
    ensures forall k :: Untargeted(actions, k) ==> Lookup(r, k) == Lookup(form, k)
    decreases |actions|
  {
    if actions == [] then form
    else
      assert forall k :: Untargeted(actions, k) ==> Untargeted(actions[1..], k) by {
        forall k, i | Untargeted(actions, k) && 0 <= i < |actions| - 1
          ensures Target(actions[1..][i]) != k
        {
          assert actions[1..][i] == actions[i + 1];
        }
      }
      Run(mode, Apply(mode, form, actions[0]), actions[1..])
  }

  /** Acting out two sequences one after the other is acting out their concatenation. */
  lemma {:induction false} RunAppend(mode: Mode, form: Raw, xs: seq<Action>, ys: seq<Action>)
    ensures Run(mode, form, xs + ys) == Run(mode, Run(mode, form, xs), ys)
    decreases |xs|
  {
    if xs != [] {
      assert (xs + ys)[1..] == xs[1..] + ys;
      RunAppend(mode, Apply(mode, form, xs[0]), xs[1..], ys);
    } else {
      assert xs + ys == ys;
    }
  }

  /** The add dialog submitted untouched reports the five required fields, in schema order, each with its message. */
  lemma UntouchedAddRejected()
    ensures Validate(AddDefaults) == Err([
      Issue(NameKey, TooSmall("Please enter a name")),
      Issue(CategoryKey, TooSmall("Please select a category")),
      Issue(PriceKey, TooSmall("Please enter a price")),
      Issue(CostKey, TooSmall("Please enter a cost")),
      Issue(StockKey, TooSmall("Please enter a stock"))])
  {
    UntouchedIssues();
    assert !FilledText(AddDefaults.name);
  }

  lemma UntouchedIssues()
    ensures Issues(AddDefaults) == [
      Issue(NameKey, TooSmall("Please enter a name")),
      Issue(CategoryKey, TooSmall("Please select a category")),
      Issue(PriceKey, TooSmall("Please enter a price")),
      Issue(CostKey, TooSmall("Please enter a cost")),
      Issue(StockKey, TooSmall("Please enter a stock"))]
  {
    UntouchedAmountsRejected();
    UntouchedTextsRejected();
    assert Issues(AddDefaults) == [
      Issue(NameKey, TooSmall("Please enter a name")),
      Issue(CategoryKey, TooSmall("Please select a category"))] + IssuesFrom(AddDefaults, 3);
  }

  /** The head of the walk over the untouched add dialog: the name and the category, and nothing for the switch. */
  lemma UntouchedTextsRejected()
    ensures IssuesFrom(AddDefaults, 0) == [
      Issue(NameKey, TooSmall("Please enter a name")),
      Issue(CategoryKey, TooSmall("Please select a category"))] + IssuesFrom(AddDefaults, 3)
  {
    var f := AddDefaults;
    assert SchemaOrder[0] == NameKey && SchemaOrder[1] == CategoryKey && SchemaOrder[2] == OptionKey;
    assert Check(f, NameKey) == Some(Issue(NameKey, TooSmall("Please enter a name")));
    assert Check(f, CategoryKey) == Some(Issue(CategoryKey, TooSmall("Please select a category")));
    assert Check(f, OptionKey) == None;
    assert IssuesFrom(f, 2) == IssuesFrom(f, 3);
    assert IssuesFrom(f, 1) == [Issue(CategoryKey, TooSmall("Please select a category"))] + IssuesFrom(f, 2);
  }

  /** The tail of the walk over the untouched add dialog: the three amounts, nothing for the switches and sizes. */
  lemma UntouchedAmountsRejected()
    ensures IssuesFrom(AddDefaults, 3) == [
      Issue(PriceKey, TooSmall("Please enter a price")),
      Issue(CostKey, TooSmall("Please enter a cost")),
      Issue(StockKey, TooSmall("Please enter a stock"))]
  {
    var f := AddDefaults;
    forall k | 6 <= Rank(k)
      ensures Satisfies(f, k)
    {
    }
    IssuesFromClean(f, 6);
    assert IssuesFrom(f, 5) == [Issue(StockKey, TooSmall("Please enter a stock"))];
    assert IssuesFrom(f, 4) == [Issue(CostKey, TooSmall("Please enter a cost"))] + IssuesFrom(f, 5);
  }

  // ---------------------------------------------------------------- invariants of the dialogs

  /** The category is unset or one of the offered labels. */
  predicate CategoryChoice(form: Raw)
  {
    form.category == Some(Text("")) || (form.category.Some? && form.category.value.Text? && IsLabel(form.category.value.s))
  }

  /** Every control holds a value of its own kind: nothing the form submits is `undefined`. */
  predicate AllPresent(form: Raw)
  {
    && form.name.Some? && form.name.value.Text?
    && form.category.Some? && form.category.value.Text?
    && form.option.Some? && form.option.value.Flag?
    && form.price.Some? && form.price.value.Text?
    && form.cost.Some? && form.cost.value.Text?
    && form.stock.Some? && form.stock.value.Text?
    && form.additional.Some? && form.additional.value.Flag?
    && form.small.Some? && form.small.value.Text?
    && form.medium.Some? && form.medium.value.Text?
    && form.large.Some? && form.large.value.Text?
  }

  /** The add dialog opens with every control holding a value of its kind, no category chosen and the size inputs hidden. */
  lemma AddDefaultsStart()
    ensures AllPresent(AddDefaults) && CategoryChoice(AddDefaults) && !SizesShown(AddDefaults)
    ensures AddDefaults.category == Some(Text("")) && !FilledText(AddDefaults.name)
  {
  }

  lemma {:induction false} RunKeepsChoiceAndPresence(mode: Mode, form: Raw, actions: seq<Action>)
    ensures CategoryChoice(form) ==> CategoryChoice(Run(mode, form, actions))
    ensures AllPresent(form) ==> AllPresent(Run(mode, form, actions))
    decreases |actions|
  {
    if actions != [] {
      ApplyKeepsChoiceAndPresence(mode, form, actions[0]);
      RunKeepsChoiceAndPresence(mode, Apply(mode, form, actions[0]), actions[1..]);
    }
  }

  /** One action keeps the category unset or a label, and every control a value of its kind. */
  lemma ApplyKeepsChoiceAndPresence(mode: Mode, form: Raw, a: Action)
    ensures CategoryChoice(form) ==> CategoryChoice(Apply(mode, form, a))
    ensures AllPresent(form) ==> AllPresent(Apply(mode, form, a))
  {
    var next := Apply(mode, form, a);
    if CategoryChoice(form) && a.Pick? && Enabled(mode, form, a) {
      assert Categories[a.index].labelText == next.category.value.s;
    }
  }

  /** Whatever the user does, the editing dialog keeps the item's category and additionals switch. */
  lemma {:induction false} EditFreezes(form: Raw, actions: seq<Action>)
    ensures Run(Editing, form, actions).category == form.category
    ensures Run(Editing, form, actions).additional == form.additional
    decreases |actions|
  {
    if actions != [] {
      EditFreezes(Apply(Editing, form, actions[0]), actions[1..]);
    }
  }

  /** The size inputs are never shown unless the additionals switch is turned on, so they keep their empty defaults. */
  lemma {:induction false} SizesStayEmpty(mode: Mode, form: Raw, actions: seq<Action>)
    requires !SizesShown(form)
    requires form.small == Some(Text("")) && form.medium == Some(Text("")) && form.large == Some(Text(""))
    requires forall i :: 0 <= i < |actions| ==> actions[i] != Flip(AdditionalKey, true)
    ensures var last := Run(mode, form, actions);
      !SizesShown(last) && last.small == Some(Text("")) && last.medium == Some(Text("")) && last.large == Some(Text(""))
    decreases |actions|
  {
    if actions != [] {
      var a := actions[0];
      var next := Apply(mode, form, a);
      assert !SizesShown(next) by {
        if Enabled(mode, form, a) && a.Flip? && a.key.AdditionalKey? {
          assert a.on == false;
        }
      }
      SizesStayEmpty(mode, next, actions[1..]);
    }
  }

  // ---------------------------------------------------------------- submitting

  /** What a submission leaves behind: the store, the form's values and the toast shown (if any). */
  datatype Outcome = Outcome(store: Store, form: Raw, notice: Option<Notice>)

  const Created: Notice := Notice("Menu created successfully", "Menu added! See it in Home")
  const Edited: Notice := Notice("Menu edited successfully", "Menu edited! See it in Home")

  /** `${error}` of a thrown `Error`. */
  function Shown(message: string): string
  {
    "Error: " + message
  }

  /** No partition holds the key. */
  predicate Unused(st: Store, key: string)
  {
    forall c :: c in st ==> key !in st[c]
  }

  /**
   * Submitting the add dialog: a rejected form stays as it is with its field
   * messages; an accepted one is written under a new key, the form is reset
   * and a toast reports success, or the error toast shows the thrown message.
   */
  function SubmitAdd(st: Store, form: Raw, newKey: string, fault: Option<string>): (r: Outcome)
    requires CategoryChoice(form) && IsKey(newKey) && Unused(st, newKey)
    ensures Validate(form).Err? ==> r == Outcome(st, form, None)
    ensures r.notice == Some(Created) <==>
      Validate(form).Ok? && fault.None? && Defined(Validate(form).value)
    ensures r.notice == Some(Created) ==>
      var data := Validate(form).value;
      && r.form == AddDefaults
      && Holds(r.store, data.category, newKey) && r.store[data.category][newKey] == data
      && OnlyTouches(st, r.store, data.category, newKey)
    ensures r.notice != Some(Created) ==> r.store == st && r.form == form
    ensures Validate(form).Ok? && r.notice != Some(Created) ==>
      r.notice == Some(Notice("Error in creating menu", Shown("Error in adding menu")))
  {
    match Validate(form)
    case Err(_) => Outcome(st, form, None)
    case Ok(data) =>
      LabelsAreKeys(data.category);
      match AddMenuItem(st, data, newKey, fault)
      case Ok(after) => Outcome(after, AddDefaults, Some(Created))
      case Err(e) => Outcome(st, form, Some(Notice("Error in creating menu", Shown(e))))
  }

  /** Every category label is a legal single path segment. */
  lemma LabelsAreKeys(s: string)
    requires IsLabel(s)
    ensures IsKey(s)
  {
    var i :| 0 <= i < |Categories| && Categories[i].labelText == s;
    FirstLabelsAreKeys();
    LastLabelsAreKeys();
    assert IsKey(Categories[i].labelText);
  }

  lemma FirstLabelsAreKeys()
    ensures IsKey("Fries & Sides") && IsKey("Burgers & Sandwiches") && IsKey("Chickens")
  {
  }

  lemma LastLabelsAreKeys()
    ensures IsKey("Salads & Wraps") && IsKey("Desserts & Treats") && IsKey("Beverages")
  {
  }

  /** The partition a created record lands in is named by the category's label, never its value. */
  lemma AddStoresUnderLabel(st: Store, form: Raw, newKey: string)
    requires CategoryChoice(form) && IsKey(newKey) && Unused(st, newKey)
    requires SubmitAdd(st, form, newKey, None).notice == Some(Created)
    ensures var c := Validate(form).value.category;
      IsLabel(c) && !IsCategoryValue(c) && Holds(SubmitAdd(st, form, newKey, None).store, c, newKey)
  {
    LabelIsNotValue(Validate(form).value.category);
  }

  /** Labels and values never coincide: every label starts with a capital, every value with a lower-case letter. */
  lemma LabelIsNotValue(s: string)
    requires IsLabel(s)
    ensures !IsCategoryValue(s)
  {
    forall i, j | 0 <= i < |Categories| && 0 <= j < |Categories|
      ensures Categories[i].labelText != Categories[j].value
    {
      assert 'A' <= Categories[i].labelText[0] <= 'Z';
      assert 'a' <= Categories[j].value[0] <= 'z';
    }
  }

  /** A form reached from the add dialog's defaults is never rejected by the store for an `undefined` value. */
  lemma AddFormDefined(actions: seq<Action>)
    ensures var form := Run(Adding, AddDefaults, actions);
      Validate(form).Ok? ==> Defined(Validate(form).value)
  {
    RunKeepsChoiceAndPresence(Adding, AddDefaults, actions);
  }

  /** A successful add lists the new record with its key, and the reset form is rejected again if resubmitted as is. */
  lemma AddSubmitListed(st: Store, form: Raw, newKey: string)
    requires CategoryChoice(form) && IsKey(newKey) && Unused(st, newKey)
    requires SubmitAdd(st, form, newKey, None).notice == Some(Created)
    ensures MenuItem(Some(newKey), Validate(form).value) in Flatten(SubmitAdd(st, form, newKey, None).store)
    ensures Validate(SubmitAdd(st, form, newKey, None).form).Err?
  {
    var data := Validate(form).value;
    LabelsAreKeys(data.category);
    AddThenListed(st, data, newKey, None);
    FlattenExact(st);
    assert SubmitAdd(st, form, newKey, None).form == AddDefaults;
    DefaultsRejected();
  }

  /** The reset add form does not pass validation. */
  lemma DefaultsRejected()
    ensures Validate(AddDefaults).Err?
  {
    UntouchedAddRejected();
  }

  /**
   * Submitting the edit dialog: the accepted values are written into the
   * record at the item's own category and key. The form hands over every
   * control, so a control left `undefined` (a record stored without that
   * property) reaches the database as `undefined`, which the update refuses.
   * The form is not reset.
   */
  function SubmitEdit(st: Store, item: MenuItem, form: Raw, fault: Option<string>): (r: Outcome)
    requires item.id.Some? && IsSegment(item.id.value) && IsSegment(item.fields.category)
    requires form.category == Some(Text(item.fields.category))
    ensures r.form == form
    ensures Validate(form).Err? ==> r.store == st && r.notice.None?
    ensures r.notice == Some(Edited) <==>
      Validate(form).Ok? && Defined(Validate(form).value) && fault.None? &&
      LegalPath(item.fields.category) && LegalPath(item.id.value)
    ensures r.notice == Some(Edited) ==>
      var (c, k) := (item.fields.category, item.id.value);
      && Holds(r.store, c, k)
      && r.store[c][k] == Validate(form).value
      && OnlyTouches(st, r.store, c, k)
    ensures r.notice != Some(Edited) ==> r.store == st
    ensures Validate(form).Ok? && r.notice != Some(Edited) ==>
      r.notice == Some(Notice("Error in editing menu", Shown("Error in editing " + Validate(form).value.name + " menu")))
  {
    match Validate(form)
    case Err(_) => Outcome(st, form, None)
    case Ok(data) =>
      if !Defined(data) then Outcome(st, form, Some(Notice("Error in editing menu", Shown(EditError(data.name)))))
      else
        MergeIdempotent(Current(st, data.category, IdOrEmpty(item)), data);
        match EditMenuItem(st, data, IdOrEmpty(item), fault)
        case Ok(after) => Outcome(after, form, Some(Edited))
        case Err(e) => Outcome(st, form, Some(Notice("Error in editing menu", Shown(e))))
  }

  /** Whatever the user changes in the edit dialog, a submission can only touch the item's own record. */
  lemma EditTargetsOwnRecord(st: Store, item: MenuItem, actions: seq<Action>, fault: Option<string>)
    requires item.id.Some? && IsSegment(item.id.value) && IsSegment(item.fields.category)
    ensures var form := Run(Editing, EditDefaults(item), actions);
      form.category == Some(Text(item.fields.category)) &&
      OnlyTouches(st, SubmitEdit(st, item, form, fault).store, item.fields.category, item.id.value)
  {
    EditFreezes(EditDefaults(item), actions);
  }

  /**
   * Submitting the edit dialog untouched leaves a listed record exactly as it
   * was: a complete record is written back unchanged, and any other is refused.
   */
  lemma UntouchedEditKeepsStore(st: Store, c: string, k: string)
    requires Wellformed(st) && Holds(st, c, k)
    ensures var item := MenuItem(Some(k), st[c][k]);
      SubmitEdit(st, item, EditDefaults(item), None).store == st
  {
    var item := MenuItem(Some(k), st[c][k]);
    assert item.fields.category == c;
    PutSame(st, c, k);
  }

  // ---------------------------------------------------------------- deleting

  /** The confirmation dialog for one item and whether a deletion is under way. */
  datatype DeleteDialog = DeleteDialog(item: MenuItem, deleting: bool)

  function OpenDelete(item: MenuItem): (d: DeleteDialog)
    ensures d.item == item && !d.deleting
  {
    DeleteDialog(item, false)
  }

  /**
   * Pressing "Yes": nothing happens while a deletion is under way (the button
   * is disabled). Otherwise the path `menu/{category}/{id ?? ""}` is formed
   * first; a path the database refuses throws before the flag is set. Then
   * the flag is set and the node the path resolves to is removed, with a
   * toast for the outcome.
   */
  function ConfirmDelete(d: DeleteDialog, st: Store, fault: Option<string>): (r: (DeleteDialog, Store, Option<Notice>))
    requires '/' !in d.item.fields.category && '/' !in IdOrEmpty(d.item)
    ensures r.0.item == d.item
    ensures r.0.deleting <==> d.deleting || (LegalPath(d.item.fields.category) && LegalPath(IdOrEmpty(d.item)))
    ensures r.1 != st ==> !d.deleting && fault.None? && r.1 == Remove(st, Address(d.item.fields.category, IdOrEmpty(d.item)))
    ensures !d.deleting && r.0.deleting && fault.None? ==>
      r.1 == Remove(st, Address(d.item.fields.category, IdOrEmpty(d.item))) &&
      r.2 == Some(Notice("Menu deleted successfully", d.item.fields.name + " deleted!"))
    ensures !d.deleting && r.0.deleting && fault.Some? ==> r.2 == Some(Notice("Error in deleting menu", fault.value))
    ensures r.2.Some? <==> !d.deleting && r.0.deleting
  {
    var c, k := d.item.fields.category, IdOrEmpty(d.item);
    if d.deleting || !LegalPath(c) || !LegalPath(k) then (d, st, None)
    else
      var busy := d.(deleting := true);
      match fault
      case Some(e) => (busy, st, Some(Notice("Error in deleting menu", e)))
      case None =>
        var after := Remove(st, Address(c, k));
        (busy, after, Some(Notice("Menu deleted successfully", d.item.fields.name + " deleted!")))
  }

  /** Confirming the deletion of a listed item removes exactly its record, and a second press does nothing. */
  lemma DeleteListedItem(st: Store, m: MenuItem)
    requires Wellformed(st) && Entry(st, m)
    ensures var (d, after, _) := ConfirmDelete(OpenDelete(m), st, None);
      && d.deleting
      && Pairs(after) == Pairs(st) - {(m.fields.category, m.id.value)}
      && ConfirmDelete(d, after, None) == (d, after, None)
  {
    var c, k := m.fields.category, m.id.value;
    assert IsKey(c) && IsKey(k);
    DeleteRemovesOne(st, c, k);
  }

  /** An item without a key addresses its whole category: every record of that partition is deleted. */
  lemma DeleteWithoutIdClearsCategory(st: Store, m: MenuItem)
    requires m.id.None? && IsKey(m.fields.category)
    ensures var (_, after, _) := ConfirmDelete(OpenDelete(m), st, None);
      Pairs(after) == set pr | pr in Pairs(st) && pr.0 != m.fields.category
  {
    DeleteEmptyIdRemovesCategory(st, m.fields.category);
  }
}

=== FILE: menucard.dfy ===
/**
 * The menu card: the loaded listing, the selection of highlighted cards, the
 * sort selection and the rotating footer tip.
 */
module MenuCard {
  import opened MenuTypes
  import opened MenuSort
  import opened Ordinal

  /** The card's state: the listing, whether it is shown, the selected ids, the sort choice and the tip shown. */
  datatype CardState = CardState(
    items: seq<MenuItem>,
    hasItems: bool,
    selected: seq<string>,
    sortBy: string,
    tipIndex: nat)

  /** The state on first render: nothing loaded, nothing selected, no sort chosen, the first tip. */
  const Initial: CardState := CardState([], false, [], "", 0)

  /**
   * The outcome of the initial fetch: the listing and whether it is non-empty,
   * or, on failure, the state left as it was and an error toast.
   */
  function Load(s: CardState, fetched: Result<seq<MenuItem>, string>): (r: (CardState, Option<Notice>))
    ensures fetched.Ok? ==> r.0.items == fetched.value && (r.0.hasItems <==> |fetched.value| > 0) && r.1.None?
    ensures fetched.Err? ==> r.0 == s && r.1 == Some(Notice("Error in getting all the menu", "Error: " + fetched.error))
    ensures r.0.selected == s.selected && r.0.sortBy == s.sortBy && r.0.tipIndex == s.tipIndex
  {
    match fetched
    case Ok(data) => (s.(items := data, hasItems := |data| > 0), None)
    case Err(e) => (s, Some(Notice("Error in getting all the menu", "Error: " + e)))
  }

  // ---------------------------------------------------------------- selection

  predicate NoDup(s: seq<string>)
  {
    forall i, j :: 0 <= i < j < |s| ==> s[i] != s[j]
  }

  /** `s` with every occurrence of `id` dropped, the rest in order. */
  function Without(s: seq<string>, id: string): (r: seq<string>)
    ensures id !in r
    ensures forall x :: x != id ==> (x in r <==> x in s)
    ensures |r| <= |s|
    ensures id !in s ==> r == s
  {
    if s == [] then []
    else (if s[0] == id then [] else [s[0]]) + Without(s[1..], id)
  }

  lemma {:induction false} WithoutNoDup(s: seq<string>, id: string)
    ensures NoDup(s) ==> NoDup(Without(s, id))
  {
    if s != [] && NoDup(s) {
      assert NoDup(s[1..]);
      WithoutNoDup(s[1..], id);
      assert s[0] !in s[1..];
    }
  }

  lemma {:induction false} WithoutAppend(s: seq<string>, id: string)
    ensures Without(s + [id], id) == Without(s, id)
  {
    if s != [] {
      assert (s + [id])[1..] == s[1..] + [id];
      WithoutAppend(s[1..], id);
    } else {
      assert [id][1..] == [];
    }
  }

  /**
   * A click on a card: an unselected id is appended, a selected one is
   * dropped (every occurrence of it). The other ids keep their order.
   */
  function Toggle(selected: seq<string>, id: string): (r: seq<string>)
    ensures id in r <==> id !in selected
    ensures forall x :: x != id ==> (x in r <==> x in selected)
    ensures Without(r, id) == Without(selected, id)
    ensures NoDup(selected) ==> NoDup(r)
    ensures id !in selected ==> r == selected + [id]
  {
    if id in selected then
      WithoutNoDup(selected, id);
      Without(selected, id)
    else
      WithoutAppend(selected, id);
      selected + [id]
  }

  /** Two clicks on the same card restore the selection's membership, and the exact list when the id was not selected. */
  lemma ToggleTwice(selected: seq<string>, id: string)
    ensures forall x :: x in Toggle(Toggle(selected, id), id) <==> x in selected
    ensures id !in selected ==> Toggle(Toggle(selected, id), id) == selected
  {
    if id !in selected {
      WithoutAppend(selected, id);
    }
  }

  /** A card is highlighted when its id (or `""`) is selected. */
  predicate Highlighted(s: CardState, item: MenuItem)
  {
    IdOrEmpty(item) in s.selected
  }

  /** Clicking a card flips its own highlight and no other card's with a different id. */
  lemma ClickFlipsHighlight(s: CardState, item: MenuItem, other: MenuItem)
    ensures var after := s.(selected := Toggle(s.selected, IdOrEmpty(item)));
      && (Highlighted(after, item) <==> !Highlighted(s, item))
      && (IdOrEmpty(other) != IdOrEmpty(item) ==> (Highlighted(after, other) <==> Highlighted(s, other)))
  {
  }

  // ---------------------------------------------------------------- sorting

  /** The sort the select's value names; any other value sorts nothing. */
  function KeyOf(sortBy: string): (k: Option<SortKey>)
    ensures k == Some(ByCategory) <==> sortBy == "category"
    ensures k == Some(ByStock) <==> sortBy == "stock"
    ensures k == Some(ByOption) <==> sortBy == "option"
  {
    if sortBy == "category" then Some(ByCategory)
    else if sortBy == "stock" then Some(ByStock)
    else if sortBy == "option" then Some(ByOption)
    else None
  }

  /** The listing can be put in the chosen order. */
  predicate SortableBy(items: seq<MenuItem>, sortBy: string)
  {
    KeyOf(sortBy).Some? ==> Sortable(KeyOf(sortBy).value, items)
  }

  /**
   * `sortMenuItems(items, sortBy)`: the listing in the chosen order, or as
   * loaded when no known order is chosen.
   */
  function SortMenuItems(items: seq<MenuItem>, sortBy: string): (r: seq<MenuItem>)
    requires SortableBy(items, sortBy)
    ensures multiset(r) == multiset(items)
    ensures KeyOf(sortBy).None? ==> r == items
    ensures KeyOf(sortBy).Some? ==> AllParsable(KeyOf(sortBy).value, r) && Sorted(KeyOf(sortBy).value, r)
  {
    match KeyOf(sortBy)
    case None => items
    case Some(key) => Sort(key, items)
  }

  /** Sorted by ordering status, every enabled item comes before every item that is not. */
  lemma EnabledFirst(items: seq<MenuItem>, i: int, j: int)
    requires SortableBy(items, "option")
    requires 0 <= i < j < |SortMenuItems(items, "option")|
    requires Truthy(SortMenuItems(items, "option")[j].fields.option)
    ensures Truthy(SortMenuItems(items, "option")[i].fields.option)
  {
    var r := SortMenuItems(items, "option");
    SortedPairwise(ByOption, r, i, j);
  }

  /** Within the chosen order, tied items keep the order they were loaded in. */
  lemma SortMenuItemsStable(items: seq<MenuItem>, sortBy: string, e: MenuItem)
    requires SortableBy(items, sortBy) && KeyOf(sortBy).Some? && Parsable(KeyOf(sortBy).value, e)
    ensures Ties(KeyOf(sortBy).value, SortMenuItems(items, sortBy), e) == Ties(KeyOf(sortBy).value, items, e)
  {
    SortStable(KeyOf(sortBy).value, items, e);
  }

  /**
   * One render of the card: while items are shown, `sortMenuItems` sorts the
   * card's own list in place, so the chosen order stays in the state and is
   * the order the next sort starts from. The second component is the list
   * of cards on screen.
   */
  function Render(s: CardState): (r: (CardState, seq<MenuItem>))
    requires SortableBy(s.items, s.sortBy)
    ensures r.0 == s.(items := r.0.items)
    ensures multiset(r.0.items) == multiset(s.items)
    ensures !s.hasItems || KeyOf(s.sortBy).None? ==> r.0 == s
    ensures s.hasItems && KeyOf(s.sortBy).Some? ==>
      AllParsable(KeyOf(s.sortBy).value, r.0.items) && Sorted(KeyOf(s.sortBy).value, r.0.items)
    ensures r.1 == (if s.hasItems then r.0.items else [])
  {
    if s.hasItems then
      var sorted := SortMenuItems(s.items, s.sortBy);
      (s.(items := sorted), sorted)
    else (s, [])
  }

  /** A render with no new choice, as after a tip tick or a click, leaves the order as it is. */
  lemma RenderIdempotent(s: CardState)
    requires SortableBy(s.items, s.sortBy)
    ensures SortableBy(Render(s).0.items, s.sortBy)
    ensures Render(Render(s).0) == Render(s)
  {
    var once := Render(s).0;
    if s.hasItems && KeyOf(s.sortBy).Some? {
      var key := KeyOf(s.sortBy).value;
      SortablePermutation(key, s.items, once.items);
      SortSorted(key, once.items);
    }
  }

  /** Choosing an order in the select, and the render that follows. */
  function ChooseSort(s: CardState, v: string): (r: CardState)
    requires SortableBy(s.items, v)
    ensures r.sortBy == v
    ensures r.hasItems == s.hasItems && r.selected == s.selected && r.tipIndex == s.tipIndex
    ensures multiset(r.items) == multiset(s.items)
    ensures s.hasItems && KeyOf(v).Some? ==> AllParsable(KeyOf(v).value, r.items) && Sorted(KeyOf(v).value, r.items)
    ensures !s.hasItems || KeyOf(v).None? ==> r.items == s.items
  {
    Render(s.(sortBy := v)).0
  }

  /** Items a new choice ties keep the order the card's list had before it, which is the previous choice's order. */
  lemma ChooseSortStable(s: CardState, v: string, e: MenuItem)
    requires SortableBy(s.items, v) && s.hasItems && KeyOf(v).Some? && Parsable(KeyOf(v).value, e)
    ensures Ties(KeyOf(v).value, ChooseSort(s, v).items, e) == Ties(KeyOf(v).value, s.items, e)
  {
    SortStable(KeyOf(v).value, s.items, e);
  }

  /**
   * The order on screen depends on the choices made before: two items in
   * different categories with the same stock, sorted by category and then by
   * stock, stay in category order, although sorting the loaded list by stock
   * would keep them as loaded.
   */
  lemma SortChoicesAccumulate(s: CardState, a: MenuItem, b: MenuItem)
    requires s.hasItems && s.items == [a, b]
    requires Less(b.fields.category, a.fields.category)
    requires IsDigits(a.fields.stock) && IsDigits(b.fields.stock)
    requires StockValue(a) == StockValue(b)
    ensures var once := ChooseSort(s, "category");
      && once.items == [b, a]
      && ChooseSort(once, "stock").items == [b, a]
      && SortMenuItems(s.items, "stock") == [a, b]
  {
    LessAsymmetric(b.fields.category, a.fields.category);
    SortPair(ByCategory, a, b);
    StockTieKept(b, a);
    StockTieKept(a, b);
  }

  /** Sorting by stock leaves two items with the same stock number as they are. */
  lemma StockTieKept(x: MenuItem, y: MenuItem)
    requires IsDigits(x.fields.stock) && IsDigits(y.fields.stock)
    requires StockValue(x) == StockValue(y)
    ensures SortableBy([x, y], "stock") && SortMenuItems([x, y], "stock") == [x, y]
  {
    SortPair(ByStock, x, y);
  }

  // ---------------------------------------------------------------- tips

  /** One tick of the tip timer. */
  function NextTip(i: nat): (j: nat)
    ensures j < |Tips|
    ensures i + 1 < |Tips| ==> j == i + 1
    ensures i + 1 == |Tips| ==> j == 0
  {
    (i + 1) % |Tips|
  }

  /** The tip shown after `n` ticks. */
  function TipAfter(n: nat): (i: nat)
    ensures i < |Tips|
  {
    if n == 0 then Initial.tipIndex else NextTip(TipAfter(n - 1))
  }

  /** The tips cycle in order: after `n` ticks the footer shows tip `n mod 3`. */
  lemma {:induction false} TipCycles(n: nat)
    ensures TipAfter(n) == n % |Tips|
  {
    if n > 0 {
      TipCycles(n - 1);
    }
  }
}

=== FILE: numbers.dfy ===
/**
 * The numbers `parseInt` returns: IEEE-754 doubles, exact up to 2^53, rounded
 * to the nearest double above that, and `Infinity` once the rounding reaches
 * 2^1024. Only the non-negative integers a digit string can spell occur.
 */
module JsNumbers {

  /** 2^53: every natural number up to here is a double; above it the doubles thin out. */
  const MaxSafe: nat := 9007199254740992

  /** A non-negative JavaScript number: a finite double, or `Infinity`. */
  datatype JsNumber = Finite(v: nat) | PosInfinity

  /** The order of JavaScript numbers: `Infinity` is above every finite number. */
  predicate NumLess(x: JsNumber, y: JsNumber)
  {
    match (x, y)
    case (Finite(a), Finite(b)) => a < b
    case (Finite(_), PosInfinity) => true
    case (PosInfinity, _) => false
  }

  function Pow2(k: nat): (p: nat)
    ensures p >= 1
  {
    if k == 0 then 1 else 2 * Pow2(k - 1)
  }

  /** The number of low bits a double drops from `n`: the significand `n / 2^k` is below 2^53. */
  function Excess(n: nat): (k: nat)
    ensures n < MaxSafe ==> k == 0
    decreases n
  {
    if n < MaxSafe then 0 else 1 + Excess(n / 2)
  }

  /**
   * The number `parseInt` yields for the value `n`: `n` itself up to 2^53,
   * beyond that the double nearest to it.
   */
  function ToDouble(n: nat): (d: JsNumber)
    ensures n <= MaxSafe ==> d == Finite(n)
  {
    if n <= MaxSafe then Finite(n) else RoundAbove(n, Excess(n))
  }

  /**
   * The double nearest to `n` when its significand is `n / 2^k`: ties go to
   * the even significand, and a result of 2^1024 or more is `Infinity` (the
   * largest double is (2^53 - 1) * 2^971).
   */
  function RoundAbove(n: nat, k: nat): (d: JsNumber)
  {
    var sig := Significand(n, k);
    if k > 971 || (k == 971 && sig == MaxSafe) then PosInfinity
    else Finite(Shift(sig, k))
  }

  /** `n / 2^k` rounded to the nearest integer, ties to the even one. */
  function Significand(n: nat, k: nat): (sig: nat)
  {
    var unit := Pow2(k);
    var q := n / unit;
    var rem := n % unit;
    if 2 * rem > unit || (2 * rem == unit && q % 2 == 1) then q + 1 else q
  }

  /** `x` times 2^k. */
  function Shift(x: nat, k: nat): (r: nat)
    ensures x > 0 ==> r > 0
  {
    if k == 0 then x else 2 * Shift(x, k - 1)
  }

  /**
   * The sign of `x - y` as a sort comparator sees it: `Infinity - Infinity`
   * is `NaN`, which counts as zero.
   */
  function Minus(x: JsNumber, y: JsNumber): (r: int)
    ensures r < 0 <==> NumLess(x, y)
    ensures r == 0 <==> x == y
  {
    match (x, y)
    case (Finite(a), Finite(b)) => a - b
    case (Finite(_), PosInfinity) => -1
    case (PosInfinity, Finite(_)) => 1
    case (PosInfinity, PosInfinity) => 0
  }

  /** 2^53 + 1 is not a double: it rounds to the even neighbour 2^53. */
  lemma AboveSafeCollapses()
    ensures ToDouble(MaxSafe + 1) == ToDouble(MaxSafe) == Finite(MaxSafe)
  {
    var n := MaxSafe + 1;
    assert Excess(n / 2) == 0;
    assert Pow2(1) == 2 && Significand(n, 1) == n / 2 && Shift(n / 2, 1) == MaxSafe;
  }

  /** Halving `n` for every factor of two above 2^53 still leaves at least 2^53. */
  lemma {:induction false} ExcessAtLeast(n: nat, j: nat)
    requires n >= Shift(MaxSafe, j)
    ensures Excess(n) > j
  {
    if j > 0 {
      ExcessAtLeast(n / 2, j - 1);
    }
  }

  /** Every value of 2^1024 or more reads as `Infinity`. */
  lemma HugeIsInfinity(n: nat)
    requires n >= Shift(MaxSafe, 971)
    ensures ToDouble(n) == PosInfinity
  {
    ExcessAtLeast(n, 971);
  }

  // ---------------------------------------------------------------- rounding is to the nearest double

  /** 2^52: the smallest significand of a double that drops bits. */
  const Half: nat := 4503599627370496

  /** `Excess(n)` puts `n` in [2^52, 2^53) units of 2^k. */
  lemma {:induction false} ExcessBounds(n: nat)
    requires n >= MaxSafe
    ensures Excess(n) >= 1
    ensures Half * Pow2(Excess(n)) <= n < MaxSafe * Pow2(Excess(n))
    decreases n
  {
    var k := Excess(n);
    assert k == 1 + Excess(n / 2);
    if n / 2 >= MaxSafe {
      ExcessBounds(n / 2);
    }
    assert Pow2(k) == 2 * Pow2(k - 1);
  }

  lemma {:induction false} Pow2Monotone(i: nat, j: nat)
    requires i <= j
    ensures Pow2(i) <= Pow2(j)
    decreases j
  {
    if i < j {
      Pow2Monotone(i, j - 1);
    }
  }

  lemma {:induction false} ExcessMonotone(m: nat, n: nat)
    requires m <= n
    ensures Excess(m) <= Excess(n)
    decreases n
  {
    if m >= MaxSafe {
      ExcessMonotone(m / 2, n / 2);
    }
  }

  lemma {:induction false} ShiftIsProduct(x: nat, k: nat)
    ensures Shift(x, k) == x * Pow2(k)
  {
    if k > 0 {
      ShiftIsProduct(x, k - 1);
      assert x * Pow2(k) == 2 * (x * Pow2(k - 1));
    }
  }

  lemma MulMonotone(a: int, b: int, u: nat)
    requires a <= b
    ensures a * u <= b * u
  {
    assert b * u - a * u == (b - a) * u;
  }

  lemma MulCancel(a: int, b: int, u: nat)
    requires a * u < b * u
    ensures a < b
  {
    if a >= b {
      MulMonotone(b, a, u);
    }
  }

  /** Dividing a multiple of `u` by `u` is exact. */
  lemma DivOfProduct(s: nat, u: nat)
    requires u > 0
    ensures (s * u) / u == s && (s * u) % u == 0
  {
    var a := s * u;
    var d := a / u;
    if d > s {
      MulMonotone(s + 1, d, u);
    } else if d < s {
      MulMonotone(d, s - 1, u);
    }
  }

  /** `n` split into whole units of 2^k and the rest. */
  lemma Split(n: nat, k: nat)
    ensures var u := Pow2(k);
      n == (n / u) * u + n % u && 0 <= n % u < u
  {
  }

  /** The significand is within half a unit of `n`, and even on a tie. */
  lemma SignificandNearest(n: nat, k: nat)
    ensures var u: int, s := Pow2(k), Significand(n, k);
      && -u <= 2 * (s * u - n) <= u
      && (2 * (s * u - n) == u || 2 * (n - s * u) == u ==> s % 2 == 0)
  {
    var u := Pow2(k);
    var q, rem := n / u, n % u;
    Split(n, k);
    assert (q + 1) * u == q * u + u;
  }

  /** Between 2^52 and 2^53 units, the significand is at least 2^52 and at most 2^53. */
  lemma SignificandRange(n: nat, k: nat)
    requires Half * Pow2(k) <= n < MaxSafe * Pow2(k)
    ensures Half <= n / Pow2(k) <= Significand(n, k) <= n / Pow2(k) + 1 <= MaxSafe
  {
    var u := Pow2(k);
    var q := n / u;
    Split(n, k);
    assert q * u < MaxSafe * u by {
      assert q * u <= n;
    }
    MulCancel(q, MaxSafe, u);
    assert Half * u < (q + 1) * u by {
      assert (q + 1) * u == q * u + u;
    }
    MulCancel(Half, q + 1, u);
  }

  /**
   * Above 2^53 a finite result is a multiple of the unit 2^k at which `n` is
   * rounded, at most half a unit from `n`, and on a tie the one with an even
   * significand: the double nearest to `n`.
   */
  lemma RoundsToNearest(n: nat)
    requires n > MaxSafe && ToDouble(n).Finite?
    ensures var v, u: int := ToDouble(n).v, Pow2(Excess(n));
      && v % u == 0
      && -u <= 2 * (v - n) <= u
      && (2 * (v - n) == u || 2 * (n - v) == u ==> (v / u) % 2 == 0)
  {
    var k := Excess(n);
    var s := Significand(n, k);
    ShiftIsProduct(s, k);
    DivOfProduct(s, Pow2(k));
    SignificandNearest(n, k);
  }

  /**
   * `Infinity` exactly from the midpoint between the largest double,
   * (2^53 - 1) * 2^971, and 2^1024 upwards; the midpoint itself is a tie that goes to the even 2^1024.
   */
  lemma InfinityThreshold(n: nat)
    ensures ToDouble(n) == PosInfinity <==> 2 * n >= (2 * MaxSafe - 1) * Pow2(971)
  {
    if n > MaxSafe {
      RoundedThreshold(n, Excess(n));
    } else {
      Pow2Monotone(0, 971);
    }
  }

  lemma RoundedThreshold(n: nat, k: nat)
    requires n > MaxSafe && k == Excess(n)
    ensures RoundAbove(n, k) == PosInfinity <==> 2 * n >= (2 * MaxSafe - 1) * Pow2(971)
  {
    ExcessBounds(n);
    if k > 971 {
      AboveTopExponent(n, k);
    } else if k < 971 {
      BelowTopExponent(n, k);
    } else {
      AtTopExponent(n, k);
    }
  }

  lemma AboveTopExponent(n: nat, k: nat)
    requires k > 971 && Half * Pow2(k) <= n
    ensures 2 * n >= (2 * MaxSafe - 1) * Pow2(971)
  {
    Pow2Monotone(972, k);
    assert Pow2(972) == 2 * Pow2(971);
  }

  lemma BelowTopExponent(n: nat, k: nat)
    requires k < 971 && n < MaxSafe * Pow2(k)
    ensures 2 * n < (2 * MaxSafe - 1) * Pow2(971)
  {
    Pow2Monotone(k, 970);
    assert Pow2(971) == 2 * Pow2(970);
  }

  lemma AtTopExponent(n: nat, k: nat)
    requires k == 971 && Half * Pow2(k) <= n < MaxSafe * Pow2(k)
    ensures RoundAbove(n, k) == PosInfinity <==> 2 * n >= (2 * MaxSafe - 1) * Pow2(k)
  {
    SignificandTop(n, k);
  }

  /** The significand rounds up to 2^53 exactly from half a unit below 2^53 units. */
  lemma SignificandTop(n: nat, k: nat)
    requires Half * Pow2(k) <= n < MaxSafe * Pow2(k)
    ensures Significand(n, k) == MaxSafe <==> 2 * n >= (2 * MaxSafe - 1) * Pow2(k)
  {
    var p := Pow2(k);
    var q, rem := n / p, n % p;
    Split(n, k);
    SignificandRange(n, k);
    assert Significand(n, k) == MaxSafe <==> q == MaxSafe - 1 && 2 * rem >= p;
    if q == MaxSafe - 1 {
      assert n == (MaxSafe - 1) * p + rem;
    } else {
      MulMonotone(q + 1, MaxSafe - 1, p);
      assert n < (q + 1) * p by {
        assert (q + 1) * p == q * p + p;
      }
    }
  }

  // ---------------------------------------------------------------- rounding keeps the order

  /** A larger value never has a smaller significand at the same unit. */
  lemma SignificandMonotone(m: nat, n: nat, k: nat)
    requires m <= n
    ensures Significand(m, k) <= Significand(n, k)
  {
    var u := Pow2(k);
    Split(m, k);
    Split(n, k);
    if m / u > n / u {
      assert (n / u + 1) * u == (n / u) * u + u;
      MulMonotone(n / u + 1, m / u, u);
    }
  }

  /** A finite rounded value stays between 2^52 and 2^53 units. */
  lemma RoundedRange(n: nat, k: nat)
    requires Half * Pow2(k) <= n < MaxSafe * Pow2(k)
    ensures RoundAbove(n, k).Finite? ==> Half * Pow2(k) <= RoundAbove(n, k).v <= MaxSafe * Pow2(k)
  {
    var s := Significand(n, k);
    SignificandRange(n, k);
    ShiftIsProduct(s, k);
    MulMonotone(Half, s, Pow2(k));
    MulMonotone(s, MaxSafe, Pow2(k));
  }

  /** Above 2^53 the result is at least 2^53. */
  lemma AboveSafeStaysAbove(n: nat)
    requires n > MaxSafe
    ensures ToDouble(n).Finite? ==> ToDouble(n).v >= MaxSafe
  {
    var k := Excess(n);
    ExcessBounds(n);
    RoundedRange(n, k);
    Pow2Monotone(1, k);
  }

  lemma SameUnitMonotone(m: nat, n: nat, k: nat)
    requires m <= n && Half * Pow2(k) <= n < MaxSafe * Pow2(k)
    ensures !NumLess(RoundAbove(n, k), RoundAbove(m, k))
  {
    var sm, sn := Significand(m, k), Significand(n, k);
    SignificandMonotone(m, n, k);
    SignificandRange(n, k);
    ShiftIsProduct(sm, k);
    ShiftIsProduct(sn, k);
    MulMonotone(sm, sn, Pow2(k));
  }

  lemma WiderUnitMonotone(m: nat, n: nat, i: nat, j: nat)
    requires i < j
    requires Half * Pow2(i) <= m < MaxSafe * Pow2(i)
    requires Half * Pow2(j) <= n < MaxSafe * Pow2(j)
    ensures !NumLess(RoundAbove(n, j), RoundAbove(m, i))
  {
    RoundedRange(m, i);
    RoundedRange(n, j);
    Pow2Monotone(i + 1, j);
    assert Pow2(i + 1) == 2 * Pow2(i);
  }

  /** Rounding keeps the order: a larger value never reads as a smaller number. */
  lemma ToDoubleMonotone(m: nat, n: nat)
    requires m <= n
    ensures !NumLess(ToDouble(n), ToDouble(m))
  {
    if n <= MaxSafe {
    } else if m <= MaxSafe {
      AboveSafeStaysAbove(n);
    } else {
      ExcessMonotone(m, n);
      ExcessBounds(m);
      ExcessBounds(n);
      if Excess(m) == Excess(n) {
        SameUnitMonotone(m, n, Excess(n));
      } else {
        WiderUnitMonotone(m, n, Excess(m), Excess(n));
      }
    }
  }
}

=== FILE: ordinal.dfy ===
/**
 * Ordinal (code-point) string order, standing in for `localeCompare` and for
 * the store's child ordering, together with the decimal digit parser that
 * stands in for `parseInt` on digit strings.
 */
module Ordinal {

  /** `a` sorts strictly before `b`: first differing character, or a proper prefix. */
  predicate Less(a: string, b: string)
    decreases |a|
  {
    if |a| == 0 then |b| > 0
    else if |b| == 0 then false
    else if a[0] != b[0] then a[0] < b[0]
    else Less(a[1..], b[1..])
  }

  predicate LessEq(a: string, b: string)
  {
    a == b || Less(a, b)
  }

  lemma {:induction false} LessIrreflexive(a: string)
    ensures !Less(a, a)
    decreases |a|
  {
    if |a| > 0 {
      LessIrreflexive(a[1..]);
    }
  }

  lemma {:induction false} LessAsymmetric(a: string, b: string)
    requires Less(a, b)
    ensures !Less(b, a)
    decreases |a|
  {
    if |a| > 0 && |b| > 0 && a[0] == b[0] {
      LessAsymmetric(a[1..], b[1..]);
    }
  }

  lemma {:induction false} LessTransitive(a: string, b: string, c: string)
    requires Less(a, b) && Less(b, c)
    ensures Less(a, c)
    decreases |a|
  {
    if |a| > 0 && a[0] == b[0] && b[0] == c[0] {
      LessTransitive(a[1..], b[1..], c[1..]);
    }
  }

  lemma {:induction false} LessTotal(a: string, b: string)
    ensures a == b || Less(a, b) || Less(b, a)
    decreases |a|
  {
    if |a| > 0 && |b| > 0 && a[0] == b[0] {
      LessTotal(a[1..], b[1..]);
      if a[1..] == b[1..] {
        assert a == [a[0]] + a[1..] && b == [b[0]] + b[1..];
      }
    }
  }

  lemma LessEqTransitive(a: string, b: string, c: string)
    requires LessEq(a, b) && LessEq(b, c)
    ensures LessEq(a, c)
  {
    if a != b && b != c {
      LessTransitive(a, b, c);
    }
  }

  /** `a.localeCompare(b)` with the locale replaced by code-point order. */
  function Compare(a: string, b: string): (r: int)
    ensures r == 0 <==> a == b
    ensures r < 0 <==> Less(a, b)
    ensures r > 0 <==> Less(b, a)
    ensures -1 <= r <= 1
  {
    LessTotal(a, b);
    LessIrreflexive(a);
    if Less(a, b) then
      LessAsymmetric(a, b);
      -1
    else if a == b then 0
    else 1
  }

  /** Every element of `r` sorts strictly before every later one. */
  predicate Increasing(r: seq<string>)
  {
    forall i, j :: 0 <= i < j < |r| ==> Less(r[i], r[j])
  }

  predicate IsLeast(m: string, s: set<string>)
  {
    m in s && forall x :: x in s ==> LessEq(m, x)
  }

  lemma {:induction false} LeastExists(s: set<string>)
    requires s != {}
    ensures exists m :: IsLeast(m, s)
    decreases |s|
  {
    var x :| x in s;
    if s == {x} {
      assert IsLeast(x, s);
    } else {
      LeastExists(s - {x});
      var y :| IsLeast(y, s - {x});
      LessTotal(x, y);
      if Less(x, y) {
        forall z | z in s
          ensures LessEq(x, z)
        {
          if z != x {
            LessEqTransitive(x, y, z);
          }
        }
        assert IsLeast(x, s);
      } else {
        assert IsLeast(y, s);
      }
    }
  }

  lemma LeastUnique(s: set<string>)
    ensures forall a, b :: IsLeast(a, s) && IsLeast(b, s) ==> a == b
  {
    forall a, b | IsLeast(a, s) && IsLeast(b, s)
      ensures a == b
    {
      if a != b {
        assert Less(a, b);
        LessAsymmetric(a, b);
      }
    }
  }

  /**
   * The elements of a finite set of keys in ascending order: the order in
   * which the store hands out the children of a node.
   */
  function Ascending(s: set<string>): (r: seq<string>)
    ensures |r| == |s|
    ensures forall x :: x in r <==> x in s
    ensures Increasing(r)
    decreases |s|
  {
    if s == {} then []
    else
      LeastExists(s);
      LeastUnique(s);
      var m :| IsLeast(m, s);
      var rest := Ascending(s - {m});
      assert forall j :: 0 <= j < |rest| ==> Less(m, rest[j]) by {
        forall j | 0 <= j < |rest|
          ensures Less(m, rest[j])
        {
          assert rest[j] in s - {m};
        }
      }
      [m] + rest
  }

  predicate IsDigit(c: char)
  {
    '0' <= c <= '9'
  }

  /** A non-empty string of decimal digits: the strings `parseInt` reads in full. */
  predicate IsDigits(s: string)
  {
    |s| > 0 && forall i :: 0 <= i < |s| ==> IsDigit(s[i])
  }

  /** The value of a string of decimal digits (the empty prefix reads as 0). */
  function DigitsValue(s: string): nat
    requires forall i :: 0 <= i < |s| ==> IsDigit(s[i])
  {
    if |s| == 0 then 0
    else DigitsValue(s[..|s| - 1]) * 10 + DigitOf(s[|s| - 1])
  }

  function DigitOf(c: char): (d: nat)
    requires IsDigit(c)
    ensures d < 10
  {
    c as int - '0' as int
  }

  /** `parseInt(s, 10)` on a digit string. */
  function ParseInt(s: string): (n: nat)
    requires IsDigits(s)
    ensures |s| == 1 ==> n == DigitOf(s[0])
    ensures n < Pow10(|s|)
  {
    DigitsBound(s);
    DigitsValue(s)
  }

  function Pow10(k: nat): (p: nat)
    ensures p >= 1
  {
    if k == 0 then 1 else 10 * Pow10(k - 1)
  }

  lemma {:induction false} DigitsBound(s: string)
    requires forall i :: 0 <= i < |s| ==> IsDigit(s[i])
    ensures DigitsValue(s) < Pow10(|s|)
  {
    if |s| > 0 {
      DigitsBound(s[..|s| - 1]);
    }
  }

  /** The decimal rendering of a natural number, without leading zeros. */
  function Show(n: nat): (s: string)
    ensures IsDigits(s)
    ensures |s| > 1 ==> s[0] != '0'
    decreases n
  {
    var d := ['0' + (n % 10) as char];
    if n < 10 then d else Show(n / 10) + d
  }

  /** `parseInt` reads back every rendered count: the parser and the renderer are inverse. */
  lemma {:induction false} ParseShow(n: nat)
    ensures ParseInt(Show(n)) == n
    decreases n
  {
    var s := Show(n);
    if n >= 10 {
      ParseShow(n / 10);
      assert s[..|s| - 1] == Show(n / 10);
    }
  }

  /** A zero in front does not change the value: `parseInt("05")` is 5. */
  lemma {:induction false} LeadingZero(s: string)
    requires forall i :: 0 <= i < |s| ==> IsDigit(s[i])
    ensures forall i :: 0 <= i < |['0'] + s| ==> IsDigit((['0'] + s)[i])
    ensures DigitsValue(['0'] + s) == DigitsValue(s)
  {
    var t := ['0'] + s;
    if |s| > 0 {
      assert t[..|t| - 1] == ['0'] + s[..|s| - 1];
      LeadingZero(s[..|s| - 1]);
    } else {
      assert t[..|t| - 1] == [];
    }
  }

  /** `parseInt` ignores leading zeros. */
  lemma LeadingZerosIgnored(s: string)
    requires IsDigits(s)
    ensures IsDigits("0" + s) && ParseInt("0" + s) == ParseInt(s)
  {
    LeadingZero(s);
  }

  /** A digit string with its leading zeros removed, keeping one digit. */
  function StripZeros(s: string): (r: string)
    requires IsDigits(s)
    ensures IsDigits(r) && (|r| > 1 ==> r[0] != '0')
    ensures DigitsValue(r) == DigitsValue(s)
    decreases |s|
  {
    if |s| > 1 && s[0] == '0' then
      LeadingZero(s[1..]);
      assert s == ['0'] + s[1..];
      StripZeros(s[1..])
    else s
  }

  /** A digit string without a leading zero is at least 10 to the power of its length less one. */
  lemma {:induction false} DigitsLowerBound(s: string)
    requires IsDigits(s) && s[0] != '0'
    ensures DigitsValue(s) >= Pow10(|s| - 1)
  {
    if |s| > 1 {
      var p := s[..|s| - 1];
      DigitsLowerBound(p);
    }
  }

  /** Rendering the value of a digit string without leading zeros gives the string back. */
  lemma {:induction false} ShowDigits(s: string)
    requires IsDigits(s) && (|s| > 1 ==> s[0] != '0')
    ensures Show(DigitsValue(s)) == s
  {
    var n := DigitsValue(s);
    var p := s[..|s| - 1];
    assert DigitsValue(p) * 10 + DigitOf(s[|s| - 1]) == n;
    if |s| > 1 {
      DigitsLowerBound(s);
      assert Pow10(|s| - 1) >= 10;
      ShowDigits(p);
      assert n / 10 == DigitsValue(p) && n % 10 == DigitOf(s[|s| - 1]);
      assert s == p + [s[|s| - 1]];
    } else {
      assert DigitsValue(p) == 0;
    }
  }

  /** Rendering what `parseInt` reads gives the string without its leading zeros: the converse of `ParseShow`. */
  lemma ShowParse(s: string)
    requires IsDigits(s)
    ensures Show(ParseInt(s)) == StripZeros(s)
  {
    ShowDigits(StripZeros(s));
  }
}

=== FILE: sorting.dfy ===
/**
 * The three orders the menu card offers and the stable sort that applies
 * them. Each comparator is written as the card writes it, as a three-way
 * result; the sort is the stable sort the JavaScript array sort guarantees.
 */
module MenuSort {
  import opened MenuTypes
  import opened Ordinal
  import opened JsNumbers

  /** The sort selections: by category name, by stock (largest first), by ordering status (enabled first). */
  datatype SortKey = ByCategory | ByStock | ByOption

  /** The comparator can read `a`: the stock order needs a stock `parseInt` reads in full. */
  predicate Parsable(key: SortKey, a: MenuItem)
  {
    key.ByStock? ==> IsDigits(a.fields.stock)
  }

  /** The number `parseInt` makes of an item's stock. */
  function StockValue(a: MenuItem): (v: JsNumber)
    requires IsDigits(a.fields.stock)
    ensures ParseInt(a.fields.stock) <= MaxSafe ==> v == Finite(ParseInt(a.fields.stock))
  {
    ToDouble(ParseInt(a.fields.stock))
  }

  /**
   * The card's comparators, negative when `a` goes first. The stock
   * comparator subtracts two JavaScript numbers; `Infinity - Infinity` is
   * `NaN`, which the array sort reads as zero.
   */
  function Cmp(key: SortKey, a: MenuItem, b: MenuItem): (r: int)
    requires Parsable(key, a) && Parsable(key, b)
    ensures key.ByCategory? ==> (r < 0 <==> Less(a.fields.category, b.fields.category))
    ensures key.ByCategory? ==> (r == 0 <==> a.fields.category == b.fields.category)
    ensures key.ByStock? ==> (r < 0 <==> NumLess(StockValue(b), StockValue(a)))
    ensures key.ByStock? ==> (r == 0 <==> StockValue(a) == StockValue(b))
    ensures key.ByOption? ==> (r < 0 <==> a.fields.option != b.fields.option && Truthy(a.fields.option))
    ensures key.ByOption? ==> (r == 0 <==> a.fields.option == b.fields.option)
  {
    match key
    case ByCategory => Compare(a.fields.category, b.fields.category)
    case ByStock => Minus(StockValue(b), StockValue(a))
    case ByOption =>
      if a.fields.option == b.fields.option then 0
      else if Truthy(a.fields.option) then -1
      else 1
  }

  /** Up to 2^53 the stock order is the order of the numbers the stocks spell. */
  lemma StockOrderExact(a: MenuItem, b: MenuItem)
    requires IsDigits(a.fields.stock) && IsDigits(b.fields.stock)
    requires ParseInt(a.fields.stock) <= MaxSafe && ParseInt(b.fields.stock) <= MaxSafe
    ensures Cmp(ByStock, a, b) <= 0 <==> ParseInt(a.fields.stock) >= ParseInt(b.fields.stock)
    ensures Cmp(ByStock, a, b) == 0 <==> ParseInt(a.fields.stock) == ParseInt(b.fields.stock)
  {
  }

  /** Whatever their size, an item with a larger stock may stay ahead of one with a smaller stock. */
  lemma LargerStockFirst(a: MenuItem, b: MenuItem)
    requires IsDigits(a.fields.stock) && IsDigits(b.fields.stock)
    requires ParseInt(a.fields.stock) >= ParseInt(b.fields.stock)
    ensures Cmp(ByStock, a, b) <= 0
  {
    ToDoubleMonotone(ParseInt(b.fields.stock), ParseInt(a.fields.stock));
  }

  /** The stocks 9007199254740992 and 9007199254740993 read as the same number and tie. */
  lemma CollapsedStocksTie(a: MenuItem, b: MenuItem)
    requires a.fields.stock == Show(MaxSafe) && b.fields.stock == Show(MaxSafe + 1)
    ensures IsDigits(a.fields.stock) && IsDigits(b.fields.stock)
    ensures ParseInt(a.fields.stock) != ParseInt(b.fields.stock) && Cmp(ByStock, a, b) == 0
  {
    ParseShow(MaxSafe);
    ParseShow(MaxSafe + 1);
    AboveSafeCollapses();
  }

  /** Two stocks of 2^1024 or more both read as `Infinity`; their difference is `NaN` and they tie. */
  lemma InfiniteStocksTie(a: MenuItem, b: MenuItem)
    requires IsDigits(a.fields.stock) && IsDigits(b.fields.stock)
    requires ParseInt(a.fields.stock) >= Shift(MaxSafe, 971) && ParseInt(b.fields.stock) >= Shift(MaxSafe, 971)
    ensures Cmp(ByStock, a, b) == 0 && Cmp(ByStock, b, a) == 0
  {
    HugeIsInfinity(ParseInt(a.fields.stock));
    HugeIsInfinity(ParseInt(b.fields.stock));
  }

  /** `a` may stay ahead of `b`. */
  predicate Before(key: SortKey, a: MenuItem, b: MenuItem)
    requires Parsable(key, a) && Parsable(key, b)
  {
    Cmp(key, a, b) <= 0
  }

  /**
   * The comparator answers consistently for this pair. An absent switch and
   * an explicit `false` both read as "not enabled" but are not equal, so the
   * ordering-status comparator calls each greater than the other.
   */
  predicate Compatible(key: SortKey, a: MenuItem, b: MenuItem)
  {
    key.ByOption? ==>
      !(a.fields.option.None? && b.fields.option == Some(false)) &&
      !(b.fields.option.None? && a.fields.option == Some(false))
  }

  predicate AllParsable(key: SortKey, s: seq<MenuItem>)
  {
    forall i :: 0 <= i < |s| ==> Parsable(key, s[i])
  }

  /** The comparator answers consistently for `x` against every element of `s`. */
  predicate CompatibleWith(key: SortKey, x: MenuItem, s: seq<MenuItem>)
  {
    forall i :: 0 <= i < |s| ==> Compatible(key, x, s[i])
  }

  /** A list the comparator orders consistently. */
  predicate Sortable(key: SortKey, s: seq<MenuItem>)
  {
    AllParsable(key, s) && forall i :: 0 <= i < |s| ==> CompatibleWith(key, s[i], s)
  }

  lemma BeforeTransitive(key: SortKey, a: MenuItem, b: MenuItem, c: MenuItem)
    requires Parsable(key, a) && Parsable(key, b) && Parsable(key, c)
    requires Before(key, a, b) && Before(key, b, c)
    ensures Before(key, a, c)
  {
    if key.ByCategory? {
      LessEqTransitive(a.fields.category, b.fields.category, c.fields.category);
    }
  }

  lemma BeforeTotal(key: SortKey, a: MenuItem, b: MenuItem)
    requires Parsable(key, a) && Parsable(key, b) && Compatible(key, a, b)
    ensures Before(key, a, b) || Before(key, b, a)
  {
    match key
    case ByCategory => LessTotal(a.fields.category, b.fields.category);
    case ByStock =>
    case ByOption =>
      var oa, ob := a.fields.option, b.fields.option;
      if !Truthy(oa) && !Truthy(ob) {
        if oa.Some? {
          assert !oa.value;
        }
        if ob.Some? {
          assert !ob.value;
        }
      }
  }

  /** A mixed pair is exactly where the ordering-status comparator contradicts itself. */
  lemma IncompatibleContradicts(a: MenuItem, b: MenuItem)
    requires !Compatible(ByOption, a, b)
    ensures Cmp(ByOption, a, b) > 0 && Cmp(ByOption, b, a) > 0
  {
  }

  /** Each element may stay ahead of the next. */
  predicate Sorted(key: SortKey, s: seq<MenuItem>)
    requires AllParsable(key, s)
  {
    forall i :: 0 <= i < |s| - 1 ==> Before(key, s[i], s[i + 1])
  }

  /** Sorted lists are ordered pairwise, not only neighbour by neighbour. */
  lemma {:induction false} SortedPairwise(key: SortKey, s: seq<MenuItem>, i: int, j: int)
    requires AllParsable(key, s)
    requires Sorted(key, s) && 0 <= i < j < |s|
    ensures Before(key, s[i], s[j])
    decreases j - i
  {
    if j > i + 1 {
      SortedPairwise(key, s, i + 1, j);
      BeforeTransitive(key, s[i], s[i + 1], s[j]);
    }
  }

  /** The elements of `s` the comparator ties with `e`, in their order in `s`. */
  function Ties(key: SortKey, s: seq<MenuItem>, e: MenuItem): seq<MenuItem>
    requires Parsable(key, e) && AllParsable(key, s)
  {
    if s == [] then []
    else (if Cmp(key, s[0], e) == 0 then [s[0]] else []) + Ties(key, s[1..], e)
  }

  /** Places `x` ahead of the first element it may precede. */
  function Insert(key: SortKey, x: MenuItem, t: seq<MenuItem>): (r: seq<MenuItem>)
    requires Parsable(key, x) && AllParsable(key, t) && CompatibleWith(key, x, t)
    requires Sorted(key, t)
    ensures multiset(r) == multiset(t) + multiset{x}
    ensures |r| == |t| + 1 && AllParsable(key, r)
    ensures Sorted(key, r)
    ensures r[0] == x || (|t| > 0 && r[0] == t[0])
  {
    if t == [] then [x]
    else if Before(key, x, t[0]) then [x] + t
    else
      TailFacts(key, x, t);
      var rest := Insert(key, x, t[1..]);
      BeforeTotal(key, x, t[0]);
      assert |t| > 1 ==> Before(key, t[0], t[1]);
      ConsSorted(key, t[0], rest);
      assert t == [t[0]] + t[1..];
      [t[0]] + rest
  }

  /** An element that may precede the head of a sorted list extends it. */
  lemma ConsSorted(key: SortKey, h: MenuItem, r: seq<MenuItem>)
    requires Parsable(key, h) && AllParsable(key, r) && Sorted(key, r)
    requires r != [] ==> Before(key, h, r[0])
    ensures AllParsable(key, [h] + r) && Sorted(key, [h] + r)
  {
    var s := [h] + r;
    forall i | 0 <= i < |s| - 1
      ensures Before(key, s[i], s[i + 1])
    {
      if i > 0 {
        assert s[i] == r[i - 1] && s[i + 1] == r[i];
      }
    }
  }

  /** `x` joins the elements tied with it ahead of all of them, and no other tie group changes. */
  lemma {:induction false} InsertTies(key: SortKey, x: MenuItem, t: seq<MenuItem>, e: MenuItem)
    requires Parsable(key, x) && AllParsable(key, t) && CompatibleWith(key, x, t)
    requires Sorted(key, t) && Parsable(key, e)
    ensures Ties(key, Insert(key, x, t), e) == (if Cmp(key, x, e) == 0 then [x] else []) + Ties(key, t, e)
    decreases |t|, 1
  {
    if t == [] {
    } else if Before(key, x, t[0]) {
      TiesCons(key, x, t, e);
    } else {
      InsertTiesBehind(key, x, t, e);
    }
  }

  /** The step where `x` goes behind the head: the head's tie group is unaffected by `x`. */
  lemma {:induction false} InsertTiesBehind(key: SortKey, x: MenuItem, t: seq<MenuItem>, e: MenuItem)
    requires Parsable(key, x) && AllParsable(key, t) && CompatibleWith(key, x, t)
    requires Sorted(key, t) && Parsable(key, e)
    requires t != [] && !Before(key, x, t[0])
    ensures Ties(key, Insert(key, x, t), e) == (if Cmp(key, x, e) == 0 then [x] else []) + Ties(key, t, e)
    decreases |t|, 0
  {
    TailFacts(key, x, t);
    var rest := Insert(key, x, t[1..]);
    InsertTies(key, x, t[1..], e);
    assert Insert(key, x, t) == [t[0]] + rest;
    assert t == [t[0]] + t[1..];
    TiesPastHead(key, x, t[0], rest, t[1..], e);
  }

  /** A head that does not tie with `x` keeps its place ahead of `x`'s tie group. */
  lemma TiesPastHead(key: SortKey, x: MenuItem, h: MenuItem, rest: seq<MenuItem>, tail: seq<MenuItem>, e: MenuItem)
    requires Parsable(key, x) && Parsable(key, h) && Parsable(key, e)
    requires AllParsable(key, rest) && AllParsable(key, tail) && Cmp(key, x, h) != 0
    requires Ties(key, rest, e) == (if Cmp(key, x, e) == 0 then [x] else []) + Ties(key, tail, e)
    ensures AllParsable(key, [h] + rest) && AllParsable(key, [h] + tail)
    ensures Ties(key, [h] + rest, e) == (if Cmp(key, x, e) == 0 then [x] else []) + Ties(key, [h] + tail, e)
  {
    TiesCons(key, h, rest, e);
    TiesCons(key, h, tail, e);
    NotBothTied(key, x, h, e);
  }

  /** The tail of a sorted list meets everything the list met. */
  lemma TailFacts(key: SortKey, x: MenuItem, t: seq<MenuItem>)
    requires AllParsable(key, t) && CompatibleWith(key, x, t) && Sorted(key, t) && t != []
    ensures AllParsable(key, t[1..]) && CompatibleWith(key, x, t[1..]) && Sorted(key, t[1..])
  {
  }

  lemma TiesCons(key: SortKey, y: MenuItem, s: seq<MenuItem>, e: MenuItem)
    requires Parsable(key, y) && AllParsable(key, s) && Parsable(key, e)
    ensures AllParsable(key, [y] + s)
    ensures Ties(key, [y] + s, e) == (if Cmp(key, y, e) == 0 then [y] else []) + Ties(key, s, e)
  {
    assert ([y] + s)[1..] == s;
  }

  /** Elements the comparator does not tie cannot both tie with a third. */
  lemma NotBothTied(key: SortKey, a: MenuItem, b: MenuItem, e: MenuItem)
    requires Parsable(key, a) && Parsable(key, b) && Parsable(key, e)
    requires Cmp(key, a, b) != 0
    ensures !(Cmp(key, a, e) == 0 && Cmp(key, b, e) == 0)
  {
  }

  /** The sort the card applies: a permutation of the input in the comparator's order. */
  function Sort(key: SortKey, s: seq<MenuItem>): (r: seq<MenuItem>)
    requires Sortable(key, s)
    ensures multiset(r) == multiset(s)
    ensures |r| == |s| && AllParsable(key, r)
    ensures Sorted(key, r)
  {
    if s == [] then []
    else
      SortableTail(key, s);
      var rest := Sort(key, s[1..]);
      assert CompatibleWith(key, s[0], s[1..]) by {
        assert CompatibleWith(key, s[0], s);
      }
      PermutationKeeps(key, s[0], s[1..], rest);
      assert s == [s[0]] + s[1..];
      Insert(key, s[0], rest)
  }

  /** Dropping the head keeps a list sortable. */
  lemma SortableTail(key: SortKey, s: seq<MenuItem>)
    requires Sortable(key, s) && s != []
    ensures Sortable(key, s[1..])
  {
    forall i | 0 <= i < |s| - 1
      ensures CompatibleWith(key, s[1..][i], s[1..])
    {
      assert CompatibleWith(key, s[i + 1], s);
    }
  }

  /** Sortability depends only on the elements: any reordering of a sortable list is sortable. */
  lemma SortablePermutation(key: SortKey, s: seq<MenuItem>, r: seq<MenuItem>)
    requires multiset(r) == multiset(s) && Sortable(key, s)
    ensures Sortable(key, r)
  {
    if s != [] {
      PermutationKeeps(key, s[0], s, r);
    }
    forall i | 0 <= i < |r|
      ensures CompatibleWith(key, r[i], r)
    {
      assert r[i] in multiset(s);
      var p :| 0 <= p < |s| && s[p] == r[i];
      assert CompatibleWith(key, s[p], s);
      PermutationKeeps(key, s[p], s, r);
    }
  }

  /** One step of the sort: the head is inserted into the sorted tail. */
  lemma SortCons(key: SortKey, s: seq<MenuItem>)
    requires Sortable(key, s) && s != []
    ensures Sortable(key, s[1..]) && CompatibleWith(key, s[0], Sort(key, s[1..]))
    ensures Sort(key, s) == Insert(key, s[0], Sort(key, s[1..]))
  {
    SortableTail(key, s);
    assert CompatibleWith(key, s[0], s);
    PermutationKeeps(key, s[0], s[1..], Sort(key, s[1..]));
  }

  /** An element that may stay ahead of a sorted list's head is inserted in front. */
  lemma InsertFront(key: SortKey, x: MenuItem, t: seq<MenuItem>)
    requires Parsable(key, x) && AllParsable(key, t) && CompatibleWith(key, x, t) && Sorted(key, t)
    requires t == [] || Before(key, x, t[0])
    ensures Insert(key, x, t) == [x] + t
  {
  }

  /** Sorting a list that is already in order leaves it as it is. */
  lemma {:induction false} SortSorted(key: SortKey, s: seq<MenuItem>)
    requires Sortable(key, s) && Sorted(key, s)
    ensures Sort(key, s) == s
  {
    if s != [] {
      var t := s[1..];
      SortCons(key, s);
      assert Sorted(key, t);
      SortSorted(key, t);
      InsertFront(key, s[0], t);
      assert [s[0]] + t == s;
    }
  }

  /** Two elements are swapped exactly when the first may not stay ahead of the second. */
  lemma SortPair(key: SortKey, x: MenuItem, y: MenuItem)
    requires Parsable(key, x) && Parsable(key, y) && Sortable(key, [x, y])
    ensures Sort(key, [x, y]) == if Before(key, x, y) then [x, y] else [y, x]
  {
    var s := [x, y];
    assert s[0] == x && s[1..] == [y];
    SortCons(key, s);
    assert Sort(key, [y]) == [y] by {
      SortCons(key, [y]);
      assert [y][1..] == [];
      InsertFront(key, y, []);
    }
    if Before(key, x, y) {
      InsertFront(key, x, [y]);
    } else {
      assert Insert(key, x, [y]) == [y] + Insert(key, x, []);
    }
  }

  /** Whatever holds of every element holds of every element of a permutation. */
  lemma PermutationKeeps(key: SortKey, x: MenuItem, s: seq<MenuItem>, r: seq<MenuItem>)
    requires multiset(r) == multiset(s)
    ensures AllParsable(key, s) ==> AllParsable(key, r)
    ensures CompatibleWith(key, x, s) ==> CompatibleWith(key, x, r)
  {
    forall i | 0 <= i < |r|
      ensures exists j :: 0 <= j < |s| && s[j] == r[i]
    {
      assert r[i] in multiset(r);
      assert r[i] in s;
    }
  }

  /** The sort is stable: elements the comparator ties keep their original relative order. */
  lemma {:induction false} SortStable(key: SortKey, s: seq<MenuItem>, e: MenuItem)
    requires Sortable(key, s) && Parsable(key, e)
    ensures Ties(key, Sort(key, s), e) == Ties(key, s, e)
  {
    if s != [] {
      SortCons(key, s);
      SortStable(key, s[1..], e);
      InsertTies(key, s[0], Sort(key, s[1..]), e);
      TiesCons(key, s[0], s[1..], e);
      assert s == [s[0]] + s[1..];
    }
  }
}

=== FILE: store.dfy ===
/**
 * The realtime-database data layer behind the admin console. The store is the
 * subtree under `menu`: one partition per category, each holding records
 * keyed by a generated key. Paths are built by string interpolation, so the
 * node an operation touches is computed here the way the database resolves
 * the path: empty segments are dropped.
 */
module MenuStore {
  import opened MenuTypes
  import opened Ordinal

  type Partition = map<string, Fields>
  type Store = map<string, Partition>

  /** One path segment: non-empty and without a separator. */
  predicate IsSegment(s: string)
  {
    |s| > 0 && '/' !in s
  }

  /** A character the database accepts in a path (`. # $ [ ]` and control characters are refused). */
  predicate LegalChar(c: char)
  {
    c != '.' && c != '#' && c != '$' && c != '[' && c != ']' && c as int >= 0x20 && c as int != 0x7F
  }

  predicate LegalPath(s: string)
  {
    forall i :: 0 <= i < |s| ==> LegalChar(s[i])
  }

  /** A key the database can hold under a node. */
  predicate IsKey(s: string)
  {
    IsSegment(s) && LegalPath(s)
  }

  /** There is a record at `menu/{c}/{k}`. */
  predicate Holds(st: Store, c: string, k: string)
  {
    c in st && k in st[c]
  }

  /**
   * The shape every reachable store has: keys are legal segments, the
   * database keeps no empty node, and a record's `category` names its partition.
   */
  predicate Wellformed(st: Store)
  {
    && (forall c :: c in st ==> IsKey(c) && st[c] != map[])
    && (forall c, k {:trigger st[c][k]} :: c in st && k in st[c] ==> IsKey(k) && st[c][k].category == c)
  }

  // ---------------------------------------------------------------- listing

  /** The entry the listing builds for one record: id and category come from the path. */
  function Listed(c: string, k: string, body: Fields): MenuItem
  {
    MenuItem(Some(k), body.(category := c))
  }

  /** `m` is the listing entry of some record of `st`. */
  predicate Entry(st: Store, m: MenuItem)
  {
    && m.id.Some?
    && Holds(st, m.fields.category, m.id.value)
    && m == Listed(m.fields.category, m.id.value, st[m.fields.category][m.id.value])
  }

  /** `a` comes before `b` in (category, key) order. */
  predicate ItemBefore(a: MenuItem, b: MenuItem)
  {
    || Less(a.fields.category, b.fields.category)
    || (a.fields.category == b.fields.category && Less(IdOrEmpty(a), IdOrEmpty(b)))
  }

  predicate StrictlyOrdered(r: seq<MenuItem>)
  {
    forall i, j :: 0 <= i < j < |r| ==> ItemBefore(r[i], r[j])
  }

  /** The entries of one partition, in key order. */
  function PartitionItems(c: string, p: Partition): (r: seq<MenuItem>)
    ensures forall m :: m in r <==>
      m.id.Some? && m.fields.category == c && m.id.value in p && m == Listed(c, m.id.value, p[m.id.value])
    ensures forall i, j :: 0 <= i < j < |r| ==> Less(IdOrEmpty(r[i]), IdOrEmpty(r[j]))
    ensures forall i :: 0 <= i < |r| ==> r[i].fields.category == c && r[i].id.Some?
  {
    var keys := Ascending(p.Keys);
    var r := seq(|keys|, i requires 0 <= i < |keys| => Listed(c, keys[i], p[keys[i]]));
    ListingMembers(c, p, keys, r);
    r
  }

  /** A listing built key by key holds exactly the entries of those keys. */
  lemma ListingMembers(c: string, p: Partition, keys: seq<string>, r: seq<MenuItem>)
    requires forall x :: x in keys <==> x in p
    requires |r| == |keys| && forall i :: 0 <= i < |r| ==> r[i] == Listed(c, keys[i], p[keys[i]])
    ensures forall m :: m in r <==>
      m.id.Some? && m.fields.category == c && m.id.value in p && m == Listed(c, m.id.value, p[m.id.value])
  {
    forall m: MenuItem | m.id.Some? && m.fields.category == c && m.id.value in p && m == Listed(c, m.id.value, p[m.id.value])
      ensures m in r
    {
      var i :| 0 <= i < |keys| && keys[i] == m.id.value;
      assert r[i] == m;
    }
  }

  /** The entries of the listed partitions, partition by partition. */
  function FlattenFrom(st: Store, cats: seq<string>): (r: seq<MenuItem>)
    requires forall c :: c in cats ==> c in st
    requires Increasing(cats)
    ensures forall m :: m in r <==> Entry(st, m) && m.fields.category in cats
    ensures forall i :: 0 <= i < |r| ==> r[i].fields.category in cats
    ensures StrictlyOrdered(r)
    decreases |cats|
  {
    if cats == [] then []
    else
      var c := cats[0];
      var here := PartitionItems(c, st[c]);
      var rest := FlattenFrom(st, cats[1..]);
      assert forall x :: x in cats <==> x == c || x in cats[1..];
      assert forall x :: x in cats[1..] ==> Less(c, x) by {
        forall x | x in cats[1..]
          ensures Less(c, x)
        {
          var j :| 0 <= j < |cats[1..]| && cats[1..][j] == x;
          assert cats[j + 1] == x;
        }
      }
      ConcatOrdered(c, here, rest);
      here + rest
  }

  /** One partition's entries followed by the entries of later partitions stay in order. */
  lemma ConcatOrdered(c: string, here: seq<MenuItem>, rest: seq<MenuItem>)
    requires forall i :: 0 <= i < |here| ==> here[i].fields.category == c
    requires forall i, j :: 0 <= i < j < |here| ==> Less(IdOrEmpty(here[i]), IdOrEmpty(here[j]))
    requires forall m :: m in rest ==> Less(c, m.fields.category)
    requires StrictlyOrdered(rest)
    ensures StrictlyOrdered(here + rest)
  {
    var r := here + rest;
    forall i, j | 0 <= i < j < |r|
      ensures ItemBefore(r[i], r[j])
    {
      if j < |here| {
      } else if i < |here| {
        assert rest[j - |here|] in rest;
      }
    }
  }

  /** The whole store as the listing sees it: every entry carries its key and names a partition of the store. */
  function Flatten(st: Store): (r: seq<MenuItem>)
    ensures forall i :: 0 <= i < |r| ==> r[i].id.Some? && r[i].fields.category in st
  {
    var r := FlattenFrom(st, Ascending(st.Keys));
    assert forall i :: 0 <= i < |r| ==> r[i] in r;
    r
  }

  /** The entries of the store are exactly its records, each once, in (category, key) order. */
  lemma FlattenExact(st: Store)
    ensures forall m :: m in Flatten(st) <==> Entry(st, m)
    ensures StrictlyOrdered(Flatten(st))
  {
  }

  /** The (category, key) pair a listing entry stands for. */
  function PairOf(m: MenuItem): (string, string)
  {
    (m.fields.category, IdOrEmpty(m))
  }

  function PairsOf(r: seq<MenuItem>): set<(string, string)>
  {
    set m | m in r :: PairOf(m)
  }

  /** A strictly ordered listing stands for as many distinct records as it has entries. */
  lemma {:induction false} OrderedPairsCount(r: seq<MenuItem>)
    requires StrictlyOrdered(r)
    ensures |PairsOf(r)| == |r|
  {
    if r != [] {
      assert StrictlyOrdered(r[1..]);
      OrderedPairsCount(r[1..]);
      PairsOfCons(r);
      HeadPairFresh(r);
    }
  }

  lemma PairsOfCons(r: seq<MenuItem>)
    requires r != []
    ensures PairsOf(r) == {PairOf(r[0])} + PairsOf(r[1..])
  {
    assert forall m :: m in r <==> m == r[0] || m in r[1..];
  }

  /** The head of a strictly ordered listing stands for a record no later entry stands for. */
  lemma HeadPairFresh(r: seq<MenuItem>)
    requires StrictlyOrdered(r) && r != []
    ensures PairOf(r[0]) !in PairsOf(r[1..])
  {
    forall m | m in r[1..]
      ensures PairOf(m) != PairOf(r[0])
    {
      var j :| 1 <= j < |r| && r[j] == m;
      assert ItemBefore(r[0], r[j]);
      LessIrreflexive(r[0].fields.category);
      LessIrreflexive(IdOrEmpty(r[0]));
    }
  }

  /** The listing has one entry per stored record: its length is the sum of the partition sizes. */
  lemma ListingSize(st: Store)
    ensures |Flatten(st)| == |Pairs(st)|
  {
    FlattenExact(st);
    OrderedPairsCount(Flatten(st));
    ListingPairs(st);
  }

  lemma ListingPairs(st: Store)
    ensures PairsOf(Flatten(st)) == Pairs(st)
  {
    FlattenExact(st);
    forall pr | pr in Pairs(st)
      ensures pr in PairsOf(Flatten(st))
    {
      var (c, k) := pr;
      var m := Listed(c, k, st[c][k]);
      assert Entry(st, m);
      assert PairOf(m) == pr;
    }
  }

  /** Strict order means no record is listed twice and each category's entries are contiguous. */
  lemma {:induction false} OrderedListingContiguous(r: seq<MenuItem>, i: int, j: int, k: int)
    requires StrictlyOrdered(r)
    requires 0 <= i < j < k < |r| && r[i].fields.category == r[k].fields.category
    ensures r[j].fields.category == r[i].fields.category
    ensures r[i] != r[j] && r[j] != r[k]
  {
    var a, b, d := r[i].fields.category, r[j].fields.category, r[k].fields.category;
    assert ItemBefore(r[i], r[j]) && ItemBefore(r[j], r[k]);
    if b != a {
      LessTotal(a, b);
      if Less(a, b) {
        if Less(b, d) {
          LessTransitive(a, b, d);
        }
        LessIrreflexive(a);
        LessAsymmetric(a, b);
      } else {
        LessAsymmetric(b, a);
      }
    }
    LessIrreflexive(IdOrEmpty(r[i]));
    LessIrreflexive(IdOrEmpty(r[j]));
    LessIrreflexive(a);
    LessIrreflexive(b);
  }

  /** On a well-formed store the listing shows each stored record unchanged. */
  lemma ListedIsStored(st: Store, c: string, k: string)
    requires Wellformed(st) && Holds(st, c, k)
    ensures Listed(c, k, st[c][k]) == MenuItem(Some(k), st[c][k])
    ensures MenuItem(Some(k), st[c][k]) in Flatten(st)
  {
    assert c in st && k in st[c];
    var body := st[c][k];
    assert body.category == c;
    assert Listed(c, k, body) == MenuItem(Some(k), body);
    FlattenExact(st);
    assert Entry(st, Listed(c, k, body));
  }

  /** `getAllMenuItems`: every record as a listing entry, or the wrapped failure. */
  function GetAllMenuItems(st: Store, fault: Option<string>): (r: Result<seq<MenuItem>, string>)
    ensures r.Err? <==> fault.Some?
    ensures r.Err? ==> r.error == "Error in getting menu items: " + fault.value
    ensures r.Ok? ==> (forall m :: m in r.value <==> Entry(st, m)) && StrictlyOrdered(r.value)
    ensures r.Ok? && st == map[] ==> r.value == []
  {
    FlattenExact(st);
    if fault.Some? then Err("Error in getting menu items: " + fault.value)
    else if st == map[] then Ok([])
    else Ok(Flatten(st))
  }

  // ---------------------------------------------------------------- writing

  /** `st` with `body` written at `menu/{c}/{k}`, creating the partition when needed. */
  function Put(st: Store, c: string, k: string, body: Fields): (r: Store)
    ensures Holds(r, c, k) && r[c][k] == body
    ensures r.Keys == st.Keys + {c}
  {
    st[c := (if c in st then st[c] else map[])[k := body]]
  }

  /** `r` differs from `st` at most at the record `menu/{c}/{k}`. */
  ghost predicate OnlyTouches(st: Store, r: Store, c: string, k: string)
  {
    forall c', k' :: (c', k') != (c, k) ==>
      (Holds(r, c', k') <==> Holds(st, c', k')) && (Holds(st, c', k') ==> r[c'][k'] == st[c'][k'])
  }

  lemma PutFrame(st: Store, c: string, k: string, body: Fields)
    ensures Holds(Put(st, c, k, body), c, k) && Put(st, c, k, body)[c][k] == body
    ensures OnlyTouches(st, Put(st, c, k, body), c, k)
    ensures Wellformed(st) && IsKey(c) && IsKey(k) && body.category == c ==> Wellformed(Put(st, c, k, body))
  {
  }

  /** The database refuses `undefined` anywhere in a written object. */
  predicate Defined(f: Fields)
  {
    f.option.Some? && f.additional.Some? && f.small.Some? && f.medium.Some? && f.large.Some?
  }

  const AddError: string := "Error in adding menu"

  /**
   * `addMenuItem(data)`: writes the record under the key `newKey` that the
   * database generates in the partition of `data.category`. It fails when the
   * category holds a character the database refuses, when a field is
   * `undefined`, or when the write itself fails (`fault`).
   */
  function AddMenuItem(st: Store, data: Fields, newKey: string, fault: Option<string>): (r: Result<Store, string>)
    requires IsSegment(data.category) && IsKey(newKey) && !Holds(st, data.category, newKey)
    ensures r.Ok? <==> fault.None? && LegalPath(data.category) && Defined(data)
    ensures r.Err? ==> r.error == AddError
    ensures r.Ok? ==> Holds(r.value, data.category, newKey) && r.value[data.category][newKey] == data
    ensures r.Ok? ==> OnlyTouches(st, r.value, data.category, newKey)
    ensures r.Ok? && Wellformed(st) ==> Wellformed(r.value)
  {
    if fault.Some? || !LegalPath(data.category) || !Defined(data) then Err(AddError)
    else
      PutFrame(st, data.category, newKey, data);
      Ok(Put(st, data.category, newKey, data))
  }

  /** After a successful add the listing holds the prior entries and exactly one new one. */
  lemma AddThenListed(st: Store, data: Fields, newKey: string, fault: Option<string>)
    requires IsSegment(data.category) && IsKey(newKey) && !Holds(st, data.category, newKey)
    requires AddMenuItem(st, data, newKey, fault).Ok?
    ensures var listing := Flatten(AddMenuItem(st, data, newKey, fault).value);
      forall m :: m in listing <==> m in Flatten(st) || m == MenuItem(Some(newKey), data)
  {
    var after := AddMenuItem(st, data, newKey, fault).value;
    FlattenExact(st);
    FlattenExact(after);
    forall m
      ensures Entry(after, m) <==> Entry(st, m) || m == MenuItem(Some(newKey), data)
    {
      if m.id.Some? && (m.fields.category, m.id.value) == (data.category, newKey) {
        assert !Entry(st, m);
      }
    }
  }

  /**
   * What `update(ref, data)` leaves at a record: every property `data` holds
   * overwrites, a property `data` leaves out keeps its prior value (or stays
   * absent when there was no record).
   */
  function Merge(prior: Option<Fields>, data: Fields): (r: Fields)
    ensures r.name == data.name && r.category == data.category && r.price == data.price
    ensures r.cost == data.cost && r.stock == data.stock
    ensures data.option.Some? ==> r.option == data.option
    ensures data.option.None? ==> r.option == (if prior.Some? then prior.value.option else None)
    ensures data.additional.Some? ==> r.additional == data.additional
    ensures data.additional.None? ==> r.additional == (if prior.Some? then prior.value.additional else None)
    ensures data.small.Some? ==> r.small == data.small
    ensures data.small.None? ==> r.small == (if prior.Some? then prior.value.small else None)
    ensures data.medium.Some? ==> r.medium == data.medium
    ensures data.medium.None? ==> r.medium == (if prior.Some? then prior.value.medium else None)
    ensures data.large.Some? ==> r.large == data.large
    ensures data.large.None? ==> r.large == (if prior.Some? then prior.value.large else None)
  {
    match prior
    case None => data
    case Some(o) =>
      data.(option := Keep(data.option, o.option), additional := Keep(data.additional, o.additional),
            small := Keep(data.small, o.small), medium := Keep(data.medium, o.medium),
            large := Keep(data.large, o.large))
  }

  function Keep<T>(given: Option<T>, prior: Option<T>): Option<T>
  {
    if given.Some? then given else prior
  }

  /** Merging the same data twice changes nothing more, and a complete record simply replaces. */
  lemma MergeIdempotent(prior: Option<Fields>, data: Fields)
    ensures Merge(Some(Merge(prior, data)), data) == Merge(prior, data)
    ensures Defined(data) ==> Merge(prior, data) == data
  {
  }

  function EditError(name: string): string
  {
    "Error in editing " + name + " menu"
  }

  function Current(st: Store, c: string, k: string): Option<Fields>
  {
    if Holds(st, c, k) then Some(st[c][k]) else None
  }

  /**
   * `editMenuItem(data, dataId)`: merges `data` into the record at
   * `menu/{data.category}/{dataId}`, creating it when there is none. It fails
   * with a message naming the record when the path holds a refused character
   * or the write fails.
   */
  function EditMenuItem(st: Store, data: Fields, dataId: string, fault: Option<string>): (r: Result<Store, string>)
    requires IsSegment(data.category) && IsSegment(dataId)
    ensures r.Ok? <==> fault.None? && LegalPath(data.category) && LegalPath(dataId)
    ensures r.Err? ==> r.error == EditError(data.name)
    ensures r.Ok? ==> Holds(r.value, data.category, dataId)
    ensures r.Ok? ==> r.value[data.category][dataId] == Merge(Current(st, data.category, dataId), data)
    ensures r.Ok? ==> OnlyTouches(st, r.value, data.category, dataId)
    ensures r.Ok? && Wellformed(st) ==> Wellformed(r.value)
  {
    if fault.Some? || !LegalPath(data.category) || !LegalPath(dataId) then Err(EditError(data.name))
    else
      var merged := Merge(Current(st, data.category, dataId), data);
      PutFrame(st, data.category, dataId, merged);
      Ok(Put(st, data.category, dataId, merged))
  }

  /** Submitting the same edit twice leaves the store as one submission does. */
  lemma EditIdempotent(st: Store, data: Fields, dataId: string)
    requires IsSegment(data.category) && IsSegment(dataId)
    requires EditMenuItem(st, data, dataId, None).Ok?
    ensures var once := EditMenuItem(st, data, dataId, None).value;
      EditMenuItem(once, data, dataId, None) == Ok(once)
  {
    var once := EditMenuItem(st, data, dataId, None).value;
    MergeIdempotent(Current(st, data.category, dataId), data);
    assert Current(once, data.category, dataId) == Some(once[data.category][dataId]);
    PutSame(once, data.category, dataId);
  }

  /** Writing back the record already stored changes nothing. */
  lemma PutSame(st: Store, c: string, k: string)
    requires Holds(st, c, k)
    ensures Put(st, c, k, st[c][k]) == st
  {
    assert st[c][k := st[c][k]] == st[c];
  }

  /** After an edit the listing shows the merged record in place of the prior one, and nothing else changes. */
  lemma EditThenListed(st: Store, data: Fields, dataId: string)
    requires IsSegment(data.category) && IsSegment(dataId)
    requires EditMenuItem(st, data, dataId, None).Ok?
    ensures var after := EditMenuItem(st, data, dataId, None).value;
      var merged := Merge(Current(st, data.category, dataId), data);
      && Listed(data.category, dataId, merged) in Flatten(after)
      && forall m: MenuItem :: m.id != Some(dataId) || m.fields.category != data.category ==>
           (m in Flatten(after) <==> m in Flatten(st))
  {
    var after := EditMenuItem(st, data, dataId, None).value;
    FlattenExact(st);
    FlattenExact(after);
    assert Entry(after, Listed(data.category, dataId, Merge(Current(st, data.category, dataId), data)));
  }

  // ---------------------------------------------------------------- removal

  /** A node of the `menu` subtree: the root, a partition, or one record. */
  datatype Node = MenuRoot | CategoryNode(c: string) | ItemNode(c: string, k: string)

  /** The segments of a path, with the empty ones dropped as the database does. */
  function Segments(parts: seq<string>): (r: seq<string>)
    ensures |r| <= |parts|
    ensures forall s :: s in r <==> s in parts && s != ""
  {
    if parts == [] then []
    else (if parts[0] == "" then [] else [parts[0]]) + Segments(parts[1..])
  }

  /** The node `menu/{c}/{k}` resolves to, for separator-free `c` and `k`. */
  function Address(c: string, k: string): (n: Node)
    requires '/' !in c && '/' !in k
    ensures c != "" && k != "" ==> n == ItemNode(c, k)
    ensures c != "" && k == "" ==> n == CategoryNode(c)
    ensures c == "" && k != "" ==> n == CategoryNode(k)
    ensures c == "" && k == "" ==> n == MenuRoot
  {
    var segs := Segments([c, k]);
    assert [c, k][1..] == [k] && [k][1..] == [];
    assert Segments([k]) == (if k == "" then [] else [k]) + Segments([]);
    assert segs == (if c == "" then [] else [c]) + (if k == "" then [] else [k]);
    if |segs| == 0 then MenuRoot
    else if |segs| == 1 then CategoryNode(segs[0])
    else ItemNode(segs[0], segs[1])
  }

  /** The records `node` covers. */
  predicate Covers(node: Node, c: string, k: string)
  {
    match node
    case MenuRoot => true
    case CategoryNode(c0) => c == c0
    case ItemNode(c0, k0) => c == c0 && k == k0
  }

  /** `remove(ref)`: drops the subtree at `node`; a partition left empty disappears with it. */
  function Remove(st: Store, node: Node): (r: Store)
    ensures forall c, k :: Holds(r, c, k) <==> Holds(st, c, k) && !Covers(node, c, k)
    ensures forall c, k :: Holds(r, c, k) ==> Holds(st, c, k) && r[c][k] == st[c][k]
    ensures Wellformed(st) ==> Wellformed(r)
  {
    match node
    case MenuRoot => map[]
    case CategoryNode(c) => st - {c}
    case ItemNode(c, k) =>
      if c !in st then st
      else
        if st[c].Keys <= {k} then st - {c}
        else st[c := st[c] - {k}]
  }

  /** Removing a node a second time changes nothing. */
  lemma RemoveIdempotent(st: Store, node: Node)
    ensures Remove(Remove(st, node), node) == Remove(st, node)
  {
    match node
    case MenuRoot =>
    case CategoryNode(c) =>
    case ItemNode(c, k) =>
      var once := Remove(st, node);
      if c in once {
        assert once[c] == st[c] - {k};
        assert !(once[c].Keys <= {k});
        assert once[c] - {k} == once[c];
        assert once[c := once[c] - {k}] == once;
      }
  }

  /** The records of a store as (category, key) pairs. */
  function Pairs(st: Store): set<(string, string)>
  {
    set c, k | c in st && k in st[c] :: (c, k)
  }

  /** Deleting a listed record by its category and key removes exactly that record. */
  lemma DeleteRemovesOne(st: Store, c: string, k: string)
    requires IsSegment(c) && IsSegment(k) && Holds(st, c, k)
    ensures Pairs(Remove(st, Address(c, k))) == Pairs(st) - {(c, k)}
  {
    var r := Remove(st, ItemNode(c, k));
    forall pr | pr in Pairs(st) - {(c, k)}
      ensures pr in Pairs(r)
    {
      assert Holds(r, pr.0, pr.1);
    }
  }

  /** The listing after that deletion is the old listing without the deleted record's entry. */
  lemma DeleteThenNotListed(st: Store, c: string, k: string)
    requires IsSegment(c) && IsSegment(k) && Holds(st, c, k)
    ensures forall m :: m in Flatten(Remove(st, Address(c, k))) <==>
      m in Flatten(st) && (m.fields.category, m.id) != (c, Some(k))
  {
    var r := Remove(st, ItemNode(c, k));
    FlattenExact(st);
    FlattenExact(r);
    forall m
      ensures Entry(r, m) <==> Entry(st, m) && (m.fields.category, m.id) != (c, Some(k))
    {
      RemovedEntry(st, c, k, m);
    }
  }

  lemma RemovedEntry(st: Store, c: string, k: string, m: MenuItem)
    ensures var r := Remove(st, ItemNode(c, k));
      Entry(r, m) <==> Entry(st, m) && (m.fields.category, m.id) != (c, Some(k))
  {
    var r := Remove(st, ItemNode(c, k));
    if m.id.Some? && Holds(r, m.fields.category, m.id.value) {
      assert r[m.fields.category][m.id.value] == st[m.fields.category][m.id.value];
    }
  }

  /** With an empty key the path collapses to the partition, and the whole category is deleted. */
  lemma DeleteEmptyIdRemovesCategory(st: Store, c: string)
    requires IsSegment(c)
    ensures Pairs(Remove(st, Address(c, ""))) == set pr | pr in Pairs(st) && pr.0 != c
  {
    var r := Remove(st, Address(c, ""));
    forall pr | pr in Pairs(st) && pr.0 != c
      ensures pr in Pairs(r)
    {
      assert Holds(r, pr.0, pr.1);
    }
  }
}

=== FILE: types.dfy ===
/**
 * The record shapes shared by the admin console: the validated menu record
 * (which is also the body kept in the store), the listed item that carries
 * its store key, the fixed category table and the rotating tips.
 */
module MenuTypes {

  /** A value that may be absent (JavaScript `undefined`). */
  datatype Option<+T> = None | Some(value: T) {
    /** `value ?? fallback` */
    function GetOr(fallback: T): T
    {
      match this
      case Some(v) => v
      case None => fallback
    }
  }

  /** The outcome of a call that either returns a value or throws with a message. */
  datatype Result<+T, +E> = Ok(value: T) | Err(error: E)

  /** A form or record value as it crosses into the schema: text or a switch state. */
  datatype Value = Text(s: string) | Flag(b: bool)

  /**
   * The validated record (`TFormValidator`). It is also exactly what the
   * store keeps at `menu/{category}/{key}`: every field except the id, which
   * lives in the path. Optional fields are `None` when the key is absent.
   */
  datatype Fields = Fields(
    name: string,
    category: string,
    option: Option<bool>,
    price: string,
    cost: string,
    stock: string,
    additional: Option<bool>,
    small: Option<string>,
    medium: Option<string>,
    large: Option<string>)

  /** `FormData`: a record together with its store key, absent until it is persisted. */
  datatype MenuItem = MenuItem(id: Option<string>, fields: Fields)

  /** `item.id ?? ""`: the key used when a path is formed from an item. */
  function IdOrEmpty(item: MenuItem): string
  {
    item.id.GetOr("")
  }

  /** JavaScript truthiness of an optional switch. */
  predicate Truthy(b: Option<bool>)
  {
    b == Some(true)
  }

  /** One entry of the category vocabulary: the option's `value` and its `label` (`labelText`), which the forms submit. */
  datatype Category = Category(value: string, labelText: string)

  const Categories: seq<Category> := [
    Category("fries-and-sides", "Fries & Sides"),
    Category("burgers-and-sandwiches", "Burgers & Sandwiches"),
    Category("chickens", "Chickens"),
    Category("salads-and-wraps", "Salads & Wraps"),
    Category("desserts-and-treats", "Desserts & Treats"),
    Category("beverages", "Beverages")
  ]

  predicate IsLabel(s: string)
  {
    exists i :: 0 <= i < |Categories| && Categories[i].labelText == s
  }

  predicate IsCategoryValue(s: string)
  {
    exists i :: 0 <= i < |Categories| && Categories[i].value == s
  }

  /** A toast: the title and description the console shows after an action. */
  datatype Notice = Notice(title: string, description: string)

  /** The hints cycled in the footer of the menu card. */
  const Tips: seq<string> := [
    "Tip 1: You can edit a menu item by clicking the pencil button outside of the card",
    "Tip 2: You can delete a menu item by clicking the X button outside of the card",
    "Tip 3: Additionals is optional in creating menu"
  ]
}

=== FILE: validator.dfy ===
/**
 * The record schema both forms validate against: five required non-empty
 * text fields, two optional switches and three optional size prices. Unknown
 * keys are dropped, every failing field reports its own issue, and nothing is
 * checked beyond presence and type (no category vocabulary, no number format).
 */
module FormValidator {
  import opened MenuTypes

  /** The ten properties the schema declares, in declaration order. */
  datatype Key =
    | NameKey | CategoryKey | OptionKey | PriceKey | CostKey | StockKey
    | AdditionalKey | SmallKey | MediumKey | LargeKey

  /**
   * The object a form hands to the schema: each declared property, absent
   * (`None`) or holding a text or switch value, and any other properties.
   */
  datatype Raw = Raw(
    name: Option<Value>,
    category: Option<Value>,
    option: Option<Value>,
    price: Option<Value>,
    cost: Option<Value>,
    stock: Option<Value>,
    additional: Option<Value>,
    small: Option<Value>,
    medium: Option<Value>,
    large: Option<Value>,
    extra: map<string, Value>)

  function Lookup(raw: Raw, k: Key): Option<Value>
  {
    match k
    case NameKey => raw.name
    case CategoryKey => raw.category
    case OptionKey => raw.option
    case PriceKey => raw.price
    case CostKey => raw.cost
    case StockKey => raw.stock
    case AdditionalKey => raw.additional
    case SmallKey => raw.small
    case MediumKey => raw.medium
    case LargeKey => raw.large
  }

  datatype Problem =
    | InvalidType(expected: string, received: string)
    | TooSmall(message: string)

  /** One field-level complaint, keyed by the property it concerns. */
  datatype Issue = Issue(path: Key, problem: Problem)

  /** What the schema declares for one property. */
  datatype Rule =
    | RequiredText(message: string)   // `z.string().min(1, { message })`
    | OptionalSwitch                  // `z.boolean().default(false).optional()`
    | OptionalText                    // `z.string().optional()`

  function RuleOf(k: Key): Rule
  {
    match k
    case NameKey => RequiredText("Please enter a name")
    case CategoryKey => RequiredText("Please select a category")
    case OptionKey => OptionalSwitch
    case PriceKey => RequiredText("Please enter a price")
    case CostKey => RequiredText("Please enter a cost")
    case StockKey => RequiredText("Please enter a stock")
    case AdditionalKey => OptionalSwitch
    case SmallKey | MediumKey | LargeKey => OptionalText
  }

  /** The type name the schema reports for a value it did not expect. */
  function TypeName(v: Option<Value>): string
  {
    match v
    case None => "undefined"
    case Some(Text(_)) => "string"
    case Some(Flag(_)) => "boolean"
  }

  /** The text shown under a field for an issue. */
  function Message(i: Issue): string
  {
    match i.problem
    case InvalidType(expected, received) =>
      if received == "undefined" then "Required" else "Expected " + expected + ", received " + received
    case TooSmall(message) => message
  }

  function TextOf(v: Option<Value>): Option<string>
  {
    if v.Some? && v.value.Text? then Some(v.value.s) else None
  }

  function FlagOf(v: Option<Value>): Option<bool>
  {
    if v.Some? && v.value.Flag? then Some(v.value.b) else None
  }

  predicate FilledText(v: Option<Value>)
  {
    v.Some? && v.value.Text? && |v.value.s| > 0
  }

  predicate SwitchOrAbsent(v: Option<Value>)
  {
    v.None? || v.value.Flag?
  }

  predicate TextOrAbsent(v: Option<Value>)
  {
    v.None? || v.value.Text?
  }

  /** An input the schema accepts, spelled out property by property. */
  predicate Conforms(raw: Raw)
  {
    && FilledText(raw.name)
    && FilledText(raw.category)
    && FilledText(raw.price)
    && FilledText(raw.cost)
    && FilledText(raw.stock)
    && SwitchOrAbsent(raw.option)
    && SwitchOrAbsent(raw.additional)
    && TextOrAbsent(raw.small)
    && TextOrAbsent(raw.medium)
    && TextOrAbsent(raw.large)
  }

  /** The rule of one property, read as a predicate on the input. */
  predicate Satisfies(raw: Raw, k: Key)
  {
    match RuleOf(k)
    case RequiredText(_) => FilledText(Lookup(raw, k))
    case OptionalSwitch => SwitchOrAbsent(Lookup(raw, k))
    case OptionalText => TextOrAbsent(Lookup(raw, k))
  }

  /** Runs one property's rule. */
  function Check(raw: Raw, k: Key): (r: Option<Issue>)
    ensures r.None? <==> Satisfies(raw, k)
    ensures r.Some? ==> r.value.path == k
    ensures RuleOf(k).RequiredText? && Lookup(raw, k) == Some(Text("")) ==>
              r == Some(Issue(k, TooSmall(RuleOf(k).message)))
    ensures RuleOf(k).RequiredText? && Lookup(raw, k).None? ==> Message(r.value) == "Required"
  {
    var v := Lookup(raw, k);
    match RuleOf(k)
    case RequiredText(message) =>
      if v.Some? && v.value.Text? then
        (if |v.value.s| >= 1 then None else Some(Issue(k, TooSmall(message))))
      else Some(Issue(k, InvalidType("string", TypeName(v))))
    case OptionalSwitch =>
      if v.Some? && !v.value.Flag? then Some(Issue(k, InvalidType("boolean", TypeName(v)))) else None
    case OptionalText =>
      if v.Some? && !v.value.Text? then Some(Issue(k, InvalidType("string", TypeName(v)))) else None
  }

  /** The schema's properties in declaration order. */
  const SchemaOrder: seq<Key> :=
    [NameKey, CategoryKey, OptionKey, PriceKey, CostKey, StockKey, AdditionalKey, SmallKey, MediumKey, LargeKey]

  /** The position of a property in the schema. */
  function Rank(k: Key): (r: nat)
    ensures r < |SchemaOrder| && SchemaOrder[r] == k
  {
    match k
    case NameKey => 0
    case CategoryKey => 1
    case OptionKey => 2
    case PriceKey => 3
    case CostKey => 4
    case StockKey => 5
    case AdditionalKey => 6
    case SmallKey => 7
    case MediumKey => 8
    case LargeKey => 9
  }

  /** Each position holds the property of that rank: the schema lists every property once. */
  lemma RankOfPosition(i: nat)
    requires i < |SchemaOrder|
    ensures Rank(SchemaOrder[i]) == i
  {
  }

  function Found(o: Option<Issue>): seq<Issue>
  {
    if o.Some? then [o.value] else []
  }

  /**
   * The issues of the properties from position `i` on, in schema order:
   * parsing does not stop at the first one.
   */
  function IssuesFrom(raw: Raw, i: nat): seq<Issue>
    requires i <= |SchemaOrder|
    decreases |SchemaOrder| - i
  {
    if i == |SchemaOrder| then [] else Found(Check(raw, SchemaOrder[i])) + IssuesFrom(raw, i + 1)
  }

  function Issues(raw: Raw): seq<Issue>
  {
    IssuesFrom(raw, 0)
  }

  /** From position `i` on, each listed issue is its own property's, and that property is at `i` or later. */
  lemma {:induction false} IssuesFromSound(raw: Raw, i: nat)
    requires i <= |SchemaOrder|
    ensures forall x :: x in IssuesFrom(raw, i) ==> i <= Rank(x.path) && Check(raw, x.path) == Some(x)
    decreases |SchemaOrder| - i
  {
    if i < |SchemaOrder| {
      var k := SchemaOrder[i];
      IssuesFromSound(raw, i + 1);
      RankOfPosition(i);
      assert IssuesFrom(raw, i) == Found(Check(raw, k)) + IssuesFrom(raw, i + 1);
    }
  }

  /** From position `i` on, every failing property is listed. */
  lemma {:induction false} IssuesFromComplete(raw: Raw, i: nat)
    requires i <= |SchemaOrder|
    ensures forall k :: i <= Rank(k) && !Satisfies(raw, k) ==> exists x :: x in IssuesFrom(raw, i) && x.path == k
    decreases |SchemaOrder| - i
  {
    if i < |SchemaOrder| {
      var r, rest := IssuesFrom(raw, i), IssuesFrom(raw, i + 1);
      IssuesFromComplete(raw, i + 1);
      assert r == Found(Check(raw, SchemaOrder[i])) + rest;
      forall k | i <= Rank(k) && !Satisfies(raw, k)
        ensures exists x :: x in r && x.path == k
      {
        if Rank(k) == i {
          assert Check(raw, k).value in r;
        } else {
          var x :| x in rest && x.path == k;
          assert x in r;
        }
      }
    }
  }

  /** The issues follow the schema's order, so no property is reported twice. */
  lemma {:induction false} IssuesFromOrdered(raw: Raw, i: nat)
    requires i <= |SchemaOrder|
    ensures forall a, b :: 0 <= a < b < |IssuesFrom(raw, i)| ==>
              Rank(IssuesFrom(raw, i)[a].path) < Rank(IssuesFrom(raw, i)[b].path)
    decreases |SchemaOrder| - i
  {
    if i < |SchemaOrder| {
      var r, rest, here := IssuesFrom(raw, i), IssuesFrom(raw, i + 1), Check(raw, SchemaOrder[i]);
      IssuesFromOrdered(raw, i + 1);
      IssuesFromSound(raw, i + 1);
      RankOfPosition(i);
      if here.Some? {
        assert r == [here.value] + rest;
        assert forall b :: 0 <= b < |rest| ==> rest[b] in rest;
      } else {
        assert r == rest;
      }
    }
  }

  /** Nothing is reported from position `i` on when every property there passes. */
  lemma IssuesFromClean(raw: Raw, i: nat)
    requires i <= |SchemaOrder|
    requires forall k :: i <= Rank(k) ==> Satisfies(raw, k)
    ensures IssuesFrom(raw, i) == []
  {
    IssuesFromSound(raw, i);
    if IssuesFrom(raw, i) != [] {
      assert IssuesFrom(raw, i)[0] in IssuesFrom(raw, i);
    }
  }

  lemma ConformsMeansAll(raw: Raw)
    ensures Conforms(raw) <==> forall k :: Satisfies(raw, k)
  {
    if !Conforms(raw) {
      assert !Satisfies(raw, NameKey) || !Satisfies(raw, CategoryKey) || !Satisfies(raw, PriceKey)
        || !Satisfies(raw, CostKey) || !Satisfies(raw, StockKey) || !Satisfies(raw, OptionKey)
        || !Satisfies(raw, AdditionalKey) || !Satisfies(raw, SmallKey) || !Satisfies(raw, MediumKey)
        || !Satisfies(raw, LargeKey);
    }
  }

  /** An issue is reported for a property exactly when its rule fails, at most once, in schema order. */
  lemma IssuesExact(raw: Raw)
    ensures forall i :: i in Issues(raw) ==> Check(raw, i.path) == Some(i)
    ensures forall k :: !Satisfies(raw, k) ==> exists i :: i in Issues(raw) && i.path == k
    ensures Issues(raw) == [] <==> Conforms(raw)
    ensures forall a, b :: 0 <= a < b < |Issues(raw)| ==> Rank(Issues(raw)[a].path) < Rank(Issues(raw)[b].path)
  {
    ConformsMeansAll(raw);
    IssuesFromSound(raw, 0);
    IssuesFromComplete(raw, 0);
    IssuesFromOrdered(raw, 0);
    if Issues(raw) != [] {
      assert Issues(raw)[0] in Issues(raw);
    }
  }

  /** The output object: the declared properties only, anything else stripped. */
  function Parsed(raw: Raw): Fields
  {
    Fields(
      name := TextOf(raw.name).GetOr(""),
      category := TextOf(raw.category).GetOr(""),
      option := FlagOf(raw.option),
      price := TextOf(raw.price).GetOr(""),
      cost := TextOf(raw.cost).GetOr(""),
      stock := TextOf(raw.stock).GetOr(""),
      additional := FlagOf(raw.additional),
      small := TextOf(raw.small),
      medium := TextOf(raw.medium),
      large := TextOf(raw.large))
  }

  /** `FormValidator.safeParse(raw)`: the record, or every property issue at once. */
  function Validate(raw: Raw): (r: Result<Fields, seq<Issue>>)
    ensures r.Ok? <==> Conforms(raw)
    ensures r.Ok? ==>
              && Some(r.value.name) == TextOf(raw.name)
              && Some(r.value.category) == TextOf(raw.category)
              && Some(r.value.price) == TextOf(raw.price)
              && Some(r.value.cost) == TextOf(raw.cost)
              && Some(r.value.stock) == TextOf(raw.stock)
              && r.value.option == FlagOf(raw.option)
              && r.value.additional == FlagOf(raw.additional)
              && r.value.small == TextOf(raw.small)
              && r.value.medium == TextOf(raw.medium)
              && r.value.large == TextOf(raw.large)
    ensures r.Err? ==> r.error == Issues(raw) && |r.error| > 0
  {
    IssuesExact(raw);
    var issues := Issues(raw);
    if issues == [] then Ok(Parsed(raw)) else Err(issues)
  }

  /**
   * A rejection names exactly the failing properties, each with the issue its
   * own rule raises.
   */
  lemma ValidateReportsEachFailure(raw: Raw)
    requires Validate(raw).Err?
    ensures forall k :: !Satisfies(raw, k) <==> exists i :: i in Validate(raw).error && i.path == k
    ensures forall i :: i in Validate(raw).error ==> Check(raw, i.path) == Some(i)
  {
    IssuesExact(raw);
  }

  /** A required field left empty is reported with that field's own message. */
  lemma EmptyRequiredCarriesMessage(raw: Raw, k: Key)
    requires RuleOf(k).RequiredText? && Lookup(raw, k) == Some(Text(""))
    ensures Validate(raw).Err?
    ensures Issue(k, TooSmall(RuleOf(k).message)) in Validate(raw).error
    ensures Message(Issue(k, TooSmall(RuleOf(k).message))) == RuleOf(k).message
  {
    IssuesExact(raw);
    assert !Satisfies(raw, k);
    var i :| i in Issues(raw) && i.path == k;
    assert Check(raw, k) == Some(i);
  }

  function TextValue(s: Option<string>): Option<Value>
  {
    if s.Some? then Some(Text(s.value)) else None
  }

  function FlagValue(b: Option<bool>): Option<Value>
  {
    if b.Some? then Some(Flag(b.value)) else None
  }

  /** The object holding exactly the properties a record has present (the edit form's defaults). */
  function ToRaw(f: Fields): Raw
  {
    Raw(Some(Text(f.name)), Some(Text(f.category)), FlagValue(f.option), Some(Text(f.price)),
        Some(Text(f.cost)), Some(Text(f.stock)), FlagValue(f.additional),
        TextValue(f.small), TextValue(f.medium), TextValue(f.large), map[])
  }

  /** The five required fields are filled in. */
  predicate Filled(f: Fields)
  {
    |f.name| > 0 && |f.category| > 0 && |f.price| > 0 && |f.cost| > 0 && |f.stock| > 0
  }

  /** A record read back through the schema is accepted exactly when its required fields are filled, and then unchanged. */
  lemma ValidateToRaw(f: Fields)
    ensures Validate(ToRaw(f)).Ok? <==> Filled(f)
    ensures Filled(f) ==> Validate(ToRaw(f)) == Ok(f)
  {
    var raw := ToRaw(f);
    assert Conforms(raw) <==> Filled(f);
    if Filled(f) {
      assert Parsed(raw) == f;
    }
  }

  /** Conversely, whatever the schema accepts is the input with its unknown properties stripped. */
  lemma ToRawValidate(raw: Raw)
    requires Validate(raw).Ok?
    ensures ToRaw(Validate(raw).value) == raw.(extra := map[])
  {
  }

  /** Properties outside the schema, such as `id`, change nothing: they are stripped. */
  lemma {:induction false} ValidateIgnoresExtra(raw: Raw, extra: map<string, Value>)
    ensures Validate(raw.(extra := extra)) == Validate(raw)
  {
    var other := raw.(extra := extra);
    IssuesCongruent(raw, other, 0);
  }

  lemma {:induction false} IssuesCongruent(a: Raw, b: Raw, i: nat)
    requires i <= |SchemaOrder|
    requires forall k :: Lookup(a, k) == Lookup(b, k)
    ensures IssuesFrom(a, i) == IssuesFrom(b, i)
    decreases |SchemaOrder| - i
  {
    if i < |SchemaOrder| {
      assert Check(a, SchemaOrder[i]) == Check(b, SchemaOrder[i]);
      IssuesCongruent(a, b, i + 1);
    }
  }

  /**
   * Neither the category vocabulary nor number formats are checked: any
   * non-empty category and non-numeric prices, costs and stocks pass, and the
   * size fields may be empty whatever `additional` says.
   */
  lemma NothingBeyondPresence(raw: Raw, category: string, amount: string, additional: bool)
    requires Conforms(raw) && |category| > 0 && |amount| > 0
    ensures
      var loose := raw.(category := Some(Text(category)), price := Some(Text(amount)),
                        cost := Some(Text(amount)), stock := Some(Text(amount)),
                        additional := Some(Flag(additional)),
                        small := Some(Text("")), medium := Some(Text("")), large := Some(Text("")));
      Validate(loose).Ok? && Validate(loose).value.category == category && Validate(loose).value.stock == amount
  {
  }

  /** When every property after the name passes, the name's issue (if any) is the only one. */
  lemma OnlyName(raw: Raw)
    requires forall k :: k != NameKey ==> Satisfies(raw, k)
    ensures Issues(raw) == Found(Check(raw, NameKey))
  {
    IssuesFromClean(raw, 1);
  }

  /** The worked example: only the empty name is reported, with its own message. */
  lemma OnlyEmptyNameReported()
    ensures
      var raw := Raw(Some(Text("")), Some(Text("chickens")), None, Some(Text("10")), Some(Text("5")),
                     Some(Text("3")), None, None, None, None, map[]);
      Validate(raw) == Err([Issue(NameKey, TooSmall("Please enter a name"))])
      && Message(Validate(raw).error[0]) == "Please enter a name"
  {
    var raw := Raw(Some(Text("")), Some(Text("chickens")), None, Some(Text("10")), Some(Text("5")),
                   Some(Text("3")), None, None, None, None, map[]);
    OnlyName(raw);
    assert Issues(raw) == [Issue(NameKey, TooSmall("Please enter a name"))];
  }
}
